=== FILE: README.md ===
# setoml core in Dafny

A model of the core of setoml, a small Python library. Its users declare a
schema as a `Settings` dataclass subclass. The library reads one or more TOML
files, merges them, and binds the result to the schema's fields with a
runtime type check. A field annotated with another `Settings` subclass is
built recursively from a nested table. A separate cached source loads and
merges setting files and secret files.

The model has one module per concern:

- `Values`: the Python values, classes and type expressions the core
  observes, with truthiness, `type(v)`, `dict.get`, and the library's
  errors by meaning.
- `Fields`: the `Field(name, default, type)` record and the
  `UndefinedField` sentinel.
- `OrderedDict`: Python's insertion-ordered `dict` with `d[k] = v` and
  `d.update(pairs)`, and the reference meaning of building one from pairs.
- `Classifier`: `_flat_annotations`, `is_optional`, `is_subsettings` and
  `type_validate`.
- `Introspect`: class declarations in place of reflection. It defines the
  parent chain, `get_type_hints`, `_collect_annotations`, `getattr` and
  `get_fields`.
- `Merge`: the shallow merge, in which a later mapping's top-level key
  replaces an earlier one's.
- `Settings`: the field loop of `model_validate`, including the nested
  schema recursion, with its order, failure and idempotence properties and
  a termination bound.
- `SettingsLoad`: the generated constructor's defaults, `files_existence`,
  `load` and `__repr__`.
- `SettingsSource`: `SettingsSource.load` and `clear` with the class-level
  cache as an explicit value, and `TOMLSource`.

Operations that raise in Python return a `Result` or a `Run`. A `Run`
carries the instance as the operation left it, because `model_validate`
and `files_existence` mutate `self` before they raise. The file system is a
map from existing paths to parsed TOML documents (`Disk`). The abstract
`parse_file` and `Path.exists` of the cached source are parameters.

The model follows the code, and where the repository's tests expect
something else the code wins. `tests/test_basic.py` uses this revision's
`Settings` and `file_names`, and differs from the code only at line 18
(the `UndefinedField` sentinel, below). `tests/test_nested.py` is written
against another revision of the API (`BaseSettings`, `setting_files`).
Points worth knowing:

- Secret files override setting files by a shallow top-level merge: a
  secret file's table replaces a setting file's table of the same key whole
  (`SettingsSource.SecretKeyWins`).
- A nested schema field that has no key in the mapping and no default
  raises "Not set". It is not built from an empty table
  (`Settings.MissingRequiredFails`).
- An optional field that is not set receives `None`. `tests/test_basic.py:18`
  expects the `UndefinedField` sentinel there, but the code never produces
  it.
- Whether a field is nested is decided only from the value's class and
  the annotation (`is_subsettings`), never from the default.
- A `dict` value checked against a union annotation (`S | None`) makes
  `issubclass` raise a TypeError (`Classifier.DictAgainstUnionRaises`).

## Model

| member | source | states |
|---|---|---|
| Classifier.FlatIsLeaves | setoml/utils.py:14-17 | a class occurs among `_flat_annotations(t)` exactly when it is a leaf of `t` at some depth of nested generics and unions |
| Classifier.FlatOfFlatUnion | setoml/utils.py:14-17 | a union of plain classes flattens to exactly its arguments, in order |
| Classifier.IsOptional | setoml/utils.py:47-52 | `is_optional(t)` holds iff NoneType is a leaf of `t` at any depth |
| Classifier.IsSubsettings | setoml/utils.py:55-64 | `is_subsettings` holds iff the value's class is `dict` and some leaf of the annotation is a `Settings` subclass |
| Classifier.TypeValidateIsLeafMatch | setoml/utils.py:67-82 | a non-dict value never makes `type_validate` raise, nor does a `dict` value against an annotation with no union or ClassVar inside; then it accepts iff the value's exact class is a leaf of the annotation (so `bool` does not satisfy `int`), or the value is a `dict` and a leaf is a `Settings` subclass |
| Classifier.TypeValidateAccepts | setoml/utils.py:67-82 | for every call of `type_validate` that does not raise, typing forms anywhere inside included, it accepts iff the value's exact class is a leaf of the annotation, or the value is a `dict` and a leaf is a `Settings` subclass (a `dict` against `dict[S, int \| str]` is accepted at `S` before the union is reached) |
| Classifier.DictAgainstUnionRaises | setoml/utils.py:74-77 | a `dict` value against a union annotation reaches `issubclass` on the union, which raises |
| Fields.UndefinedIsFalsySingleton | setoml/field.py:5-15 | the sentinel is falsy and is the only value of its class |
| OrderedDict.PutAllFromEmpty | setoml/utils.py:24-27 | updating an empty dict with pairs keeps each name once, in order of first appearance, holding its last value |
| OrderedDict.RefreshIsUpdate | setoml/utils.py:25-26 | updating a dict with the items of an update of itself changes nothing further, which is why re-merging a base's inherited hints is harmless |
| Introspect.CollectFoldIsHints | setoml/utils.py:20-27 | the loop over bases, each updating with that base's type hints, equals the hints of the whole chain merged once |
| Introspect.CollectAnnotationsSpec | setoml/utils.py:20-27 | `_collect_annotations` has every annotated name of the chain once, ordered by its most-base declaration, each with the type of its most derived declaration |
| Introspect.PublicNames | setoml/utils.py:43 | a name survives the filter iff it is among the keys and does not start with `__` |
| Introspect.Getattr | setoml/utils.py:39 | `getattr(obj, name, None)` returns the instance's own attribute when it has one, else the value in the most derived class of the chain that defines the name, else None |
| Introspect.ClassAttr | setoml/utils.py:39 | the class-attribute lookup finds the value in the most derived class of the chain that defines the name, and finds nothing iff no class defines it |
| Introspect.GetFieldsSpec | setoml/utils.py:30-44 | `get_fields` yields exactly the non-dunder collected names, in most-base declaration order, each with its most derived type and with the object's current attribute (or None) as default |
| Introspect.Mro | setoml/utils.py:25 | the chain holds only declared classes, once each, each a direct subclass of the one before it; it ends with the class itself and starts at a class whose parent is absent, undeclared or already on the chain |
| Merge.MergeAll | setoml/settings_source.py:32-34 | the merge has exactly the keys of all mappings, each with the value of the last mapping that has it |
| Settings.BindField | setoml/settings.py:59-81 | a required field that is absent or falsy raises "Not set"; otherwise a class that the annotation rejects raises TypeError, a `type_validate` that raises propagates, an accepted plain value binds as `obj.get(name, default)`, and a nested value against a parameterised generic raises; a bound nested value is an instance of the default's class when the default is an instance of the schema, else of the schema itself |
| Settings.BindFieldNested | setoml/settings.py:75-79 | a nested field binds to the outcome of validating its table on the default, when that is an instance of the schema, else on a fresh instance built with the `__init__` defaults: the instance produced, or the error raised |
| Settings.ValidateFields | setoml/settings.py:55-81 | the loop keeps the instance's class and touches no name that is not a non-control field of the list |
| Settings.ValidateFieldsSpec | setoml/settings.py:55-83 | on success each non-control field holds what its binding computes; on failure the first failing field gives the error, earlier fields are assigned and later ones are untouched |
| Settings.ModelValidate | setoml/settings.py:54-57 | control fields, non-field attributes and the class keep their values |
| Settings.ModelValidateSpec | setoml/settings.py:54-83 | the field-by-field success and first-failure characterisation above, for the fields of the instance |
| Settings.SuccessBindsPlainValues | setoml/settings.py:66-81 | after success a non-nested field holds `obj.get(name, default)`, of a class its annotation accepts |
| Settings.MissingRequiredFails | setoml/settings.py:59-64 | a field with no default, a non-optional annotation and an absent or falsy key makes validation fail, nested schema fields included |
| Settings.ValidateFieldsStable | setoml/settings.py:55-81 | a field list whose every non-control field already binds to the value the instance holds leaves the instance unchanged |
| Settings.BindFieldStable | setoml/settings.py:66-81 | a field whose default is the value it was bound to binds to that value again |
| Settings.ModelValidateIdempotent | setoml/settings.py:54-83 | validating the result again against the same mapping succeeds and changes nothing |
| Settings.RankedWithinDepth | setoml/settings.py:75-79 | for a schema tree without cycles, recursion as deep as the class's rank never hits the depth limit |
| SettingsLoad.Construct | setoml/settings.py:12-20 | the generated `__init__` succeeds iff every keyword is a dataclass field, and then stores each of the five non-ClassVar fields, a keyword replacing its default |
| SettingsLoad.Iterate | setoml/settings.py:47 | iterating a list yields its items; iterating a string yields its characters, each a one-character string |
| SettingsLoad.MissingPaths | setoml/settings.py:47 | the missing names are exactly the listed names absent from disk; a non-string name raises |
| SettingsLoad.FilesExistence | setoml/settings.py:41-52 | with `skip_missing_files` truthy nothing changes; otherwise a lone string is wrapped in a list, and the check passes iff every listed file exists, failing with exactly the missing ones |
| SettingsLoad.ReadFile | setoml/settings.py:96 | parsing succeeds iff the file exists and is well formed, and yields its document; a missing file raises |
| SettingsLoad.NarrowToApp | setoml/settings.py:97-100 | a falsy `app_name` keeps the document; a truthy one selects its table, raising when the key is absent or the value is not a table |
| SettingsLoad.ReadAll | setoml/settings.py:95-100 | either every file is read and narrowed, in order, or the first that fails gives the error |
| SettingsLoad.LoadWith | setoml/settings.py:93-102 | for any way of iterating `file_names`: if some listed file cannot be read or narrowed, `load` fails with the first such file in listed order and leaves the instance as it was; otherwise it reads one document per listed file and validates their shallow merge, which holds exactly the documents' keys, each valued by the last file holding it |
| SettingsLoad.LoadSpec | setoml/settings.py:90-102 | `load` fails with the first unreadable file in listed order, or validates the shallow merge of all files, later keys winning; the files read are the files checked |
| SettingsLoad.LoadAgreesWhenChecked | setoml/settings.py:41-46 | when the existence check runs, or `file_names` is not a lone string, the code as written and the corrected reading agree |
| SettingsLoad.LoneNameSplitIntoCharacters | setoml/settings.py:95 | with the check skipped, the code as written opens the file `s` for the default name `settings.toml` and fails although that file exists |
| SettingsLoad.LoneNameReadsOneFile | setoml/settings.py:95 | in the same situation the corrected reading validates the content of `settings.toml` |
| SettingsLoad.ReprOf | setoml/settings.py:108-114 | one entry per non-control field, in field order, each the field's name and default |
| SettingsLoad.ReprEntries | setoml/settings.py:104-118 | the repr lists exactly the non-control fields of the instance, in field order, each with the instance's current attribute (or None) |
| SettingsLoad.ReprShowsBoundValues | setoml/settings.py:104-118 | after successful validation the repr shows every non-control field with the value it was bound to |
| SettingsLoad.BaseSettingsBindsNothing | setoml/settings.py:22-31 | a bare `Settings` instance has only control fields, so validation leaves it unchanged whatever the mapping holds |
| SettingsSource.Sources | setoml/settings_source.py:22 | the path list is the setting files followed by the secret files, with a missing list read as empty |
| SettingsSource.FirstMissing | setoml/settings_source.py:26-30 | no path is reported iff all exist; otherwise the earliest missing path is reported |
| SettingsSource.ParseAll | setoml/settings_source.py:33 | either every file parses, in order, or the first failing parse gives the error |
| SettingsSource.SourceLoad | setoml/settings_source.py:16-35 | a cache hit returns the cached mapping without checking files; a miss fails on the first missing file, else on the first failing parse, else stores and returns the shallow merge of all parses; a failure leaves the cache as it was |
| SettingsSource.ClearedLoadReparses | setoml/settings_source.py:25-43 | after `clear`, a load whose files all exist and parse reads them again and stores and returns exactly their keys, each with its value in the last file holding it |
| SettingsSource.Clear | setoml/settings_source.py:41-43 | the cleared cache holds no key |
| SettingsSource.TomlLoad | setoml/settings_source.py:46-60 | `TOMLSource.load` succeeds iff the lists are cached or every listed file exists and is well formed; a fresh success caches and returns exactly the top-level keys of the listed documents |
| SettingsSource.KeyIsConcatenation | setoml/settings_source.py:22-23 | the cache key is the concatenated path list: splitting it differently shares an entry, reordering it does not |
| SettingsSource.SecondLoadIsCached | setoml/settings_source.py:25-35 | after a successful load the same lists load the same mapping again, whatever the files hold now |
| SettingsSource.ClearedLoadChecksFiles | setoml/settings_source.py:41-43 | after `clear` a load that lists a missing file fails, even for lists loaded before |
| SettingsSource.SecretKeyWins | setoml/settings_source.py:32-34 | a top-level key held by a secret file takes the value from the last secret file holding it, whole tables included |

## Left out

- TOML parsing (`setoml/compat.py`): a file is a parsed mapping, a malformed document, or absent. The parser's value types are folded into `Value`, and floats are reals. Date-times, local dates and local times are three distinct classes, as `type_validate` tells them apart, but their values are opaque.
- `__post_init__` and `get_settings_root`: constructing a top-level schema calls `load`, and the model runs `Construct` and `Load` as separate steps. `settings_root` is never read by the core.
- Settings.BindField: the nested `f.type()` at setoml/settings.py:77 runs the generated `__init__`, which `FreshInstance` models with the five dataclass defaults. Its `__post_init__` is not modelled. That hook would call `load` on the nested instance first: it checks for and reads the default `settings.toml` and may raise before the table is validated.
- `load_single`: it is an unused wrapper around `toml_load`.
- Message texts of exceptions and the exact `__repr__` text: errors are kept by meaning, and the repr by its entries. The class's `__qualname__` and `repr()` of the values are left out.
- Python reflection (`inspect.getmro`, `get_type_hints`, `isinstance`, `issubclass`): a registry of class declarations with single inheritance stands in. Multiple inheritance and forward-reference strings are not modelled.
- Object identity: Python mutates a default instance in place and shares it between instances. The model uses value semantics, so an aliasing effect on another instance is not modelled.
- The process-wide cache is an explicit value passed into and returned from `load` and `clear`. The thread-safety of the shared cache is not modelled.
- Path normalisation: the cache key `str(paths)` is modelled as the list of path strings. `Path` turns spellings such as `a` and `./a` into one path, so the code shares one cache entry where the model keeps two. The model's cache is finer than the code's.
- `secret_names` and `skip_extras`: the code never reads them.
- A set or dict given as `file_names` is reported as `BadFileNames` instead of being iterated.
- SettingsLoad.NarrowToApp: any app section that is not a table fails as `NotATable`. The code hands it to `dict.update` (setoml/settings.py:100), which iterates a string or an array as key/value pairs: `""` and `[]` are a no-op there, and `["ab"]` binds `a = "b"`. That iteration is not modelled, because a pair's key need not be a string and the model's tables have string keys.
- Settings.ModelValidate: Python's recursion limit is modelled as a fuel bound. Exhausting it gives `RecursionLimit`. `Settings.RankedWithinDepth` shows that an acyclic schema tree never reaches the bound.
- The three-level nested scenario of `tests/test_nested.py:6-35` is not replayed as a concrete lemma. It is written against the `BaseSettings` and `setting_files` names, which this revision does not define. In the model the three levels bind as the test expects (`Settings.ModelValidateSpec`, `Settings.BindFieldNested`), but the model leaves out the nested `__post_init__` (see the `Settings.BindField:` line). The code as written first loads `settings.toml` for each nested schema it builds, and may raise there.
- Dict key order: a TOML table is a `Values.Mapping`, a `map`, so the key order of a Python `dict` is dropped. Fields are visited, and `__repr__` lists its entries, in field order, so no modelled outcome depends on the table's order. Only the printed text of a table-valued field would, and that text is left out.

## Findings

| source | as written | input that shows it | evidently intended | confidence | as-written member | corrected member |
|---|---|---|---|---|---|---|
| setoml/settings.py:95 | `load` iterates `self.file_names` as it stands. Only `files_existence` wraps a lone string in a list, and it returns before doing so when `skip_missing_files` is truthy. | An app with `skip_missing_files=True` and the default `file_names="settings.toml"` opens `s`, `e`, `t`, … and raises on `s` although `settings.toml` exists | a lone string is one file name, as the annotation `Iterable[str] \| str` and `files_existence` say | not executed | SettingsLoad.LoneNameSplitIntoCharacters | SettingsLoad.LoneNameReadsOneFile |

=== FILE: classifier.dfy ===
/** The type classifier of setoml/utils.py: flattening annotations, the
    optional test, the nested-schema test and the runtime type check. */
module Classifier {
  import opened Values

  /** `_flat_annotations`: a plain class is its own flattening; a generic or
      union is the concatenation of its arguments' flattenings. */
  function Flat(t: TypeExpr): (r: seq<TypeExpr>)
    ensures forall i :: 0 <= i < |r| ==> r[i].Leaf?
    decreases t
  {
    match t
    case Leaf(_) => [t]
    case Generic(_, args) => FlatArgs(args)
  }

  function FlatArgs(args: seq<TypeExpr>): (r: seq<TypeExpr>)
    ensures forall i :: 0 <= i < |r| ==> r[i].Leaf?
    decreases args
  {
    if args == [] then [] else Flat(args[0]) + FlatArgs(args[1..])
  }

  /** Reference meaning of a leaf of `t`: `t` is that class, or some
      argument, at any depth, has it as a leaf. */
  ghost predicate Occurs(t: TypeExpr, tag: Tag)
    decreases t
  {
    match t
    case Leaf(x) => x == tag
    case Generic(_, args) => exists i :: 0 <= i < |args| && Occurs(args[i], tag)
  }

  /** The flattening holds exactly the leaves of `t`, nested unions included. */
  lemma {:induction false} FlatIsLeaves(t: TypeExpr, tag: Tag)
    ensures Leaf(tag) in Flat(t) <==> Occurs(t, tag)
    decreases t, 1
  {
    match t
    case Leaf(_) =>
    case Generic(_, args) => FlatArgsIsLeaves(args, tag);
  }

  lemma {:induction false} FlatArgsIsLeaves(args: seq<TypeExpr>, tag: Tag)
    ensures Leaf(tag) in FlatArgs(args) <==> exists i :: 0 <= i < |args| && Occurs(args[i], tag)
    decreases args, 0
  {
    if args != [] {
      FlatIsLeaves(args[0], tag);
      FlatArgsIsLeaves(args[1..], tag);
      assert forall i :: 1 <= i < |args| ==> args[1..][i - 1] == args[i];
      if Occurs(args[0], tag) {
        assert Leaf(tag) in Flat(args[0]);
      }
    }
  }

  /** A union whose arguments are all plain classes flattens to exactly its
      arguments, in order (`int | None` gives `(int, NoneType)`). */
  lemma {:induction false} FlatOfFlatUnion(o: Origin, args: seq<TypeExpr>)
    requires forall i :: 0 <= i < |args| ==> args[i].Leaf?
    ensures Flat(Generic(o, args)) == args
    decreases args
  {
    if args != [] {
      FlatOfFlatUnion(o, args[1..]);
      assert Flat(Generic(o, args[1..])) == FlatArgs(args[1..]);
      assert Flat(args[0]) == [args[0]];
      assert FlatArgs(args) == Flat(args[0]) + FlatArgs(args[1..]);
      assert args == [args[0]] + args[1..];
    }
  }

  /** `is_optional`: NoneType is among the flattened leaves. */
  function IsOptional(t: TypeExpr): (r: bool)
    ensures r <==> Occurs(t, NoneT)
  {
    FlatIsLeaves(t, NoneT);
    Leaf(NoneT) in Flat(t)
  }

  /** Some flattened leaf is a `Settings` subclass. */
  function HasSchemaLeaf(t: TypeExpr): (r: bool)
    ensures r <==> exists n :: Occurs(t, Schema(n))
  {
    var flat := Flat(t);
    if exists i :: 0 <= i < |flat| && flat[i].tag.Schema? then
      var i :| 0 <= i < |flat| && flat[i].tag.Schema?;
      FlatIsLeaves(t, flat[i].tag);
      true
    else
      assert forall n :: !Occurs(t, Schema(n)) by {
        forall n ensures !Occurs(t, Schema(n)) {
          FlatIsLeaves(t, Schema(n));
        }
      }
      false
  }

  /** `is_subsettings(type(value), annotation)`: only a `dict` value is ever
      bound to a nested schema, and only when the annotation names one. */
  function IsSubsettings(valType: Tag, t: TypeExpr): (r: bool)
    ensures r <==> valType == Dict && exists n :: Occurs(t, Schema(n))
  {
    if valType != Dict then false else HasSchemaLeaf(t)
  }

  /** The three outcomes of `type_validate`: it may raise a TypeError itself. */
  datatype Check = Accepted | Rejected | Raises

  /** `issubclass(annotation, Settings)` raises for the typing forms
      (`X | Y`, `Optional[X]`, `ClassVar[X]`) because they are not classes.
      For the builtin generic aliases (`list[X]`, `dict[K, V]`, `set[X]`)
      the model assumes an interpreter version on which `issubclass`
      forwards to the origin class, which is not a `Settings` subclass, and
      so answers False. Where such an alias raises instead, and for the
      `typing.List[X]` spellings, which raise, a `dict` value against them
      would raise where the model rejects it. */
  predicate IssubclassRaises(t: TypeExpr)
  {
    t.Generic? && (t.origin == UnionOf || t.origin == ClassVarOf)
  }

  /** `type_validate(val_type, annotation)`. */
  function TypeValidate(valType: Tag, t: TypeExpr): Check
    decreases t
  {
    if t == Leaf(valType) then Accepted
    else if valType == Dict && IssubclassRaises(t) then Raises
    else if valType == Dict && t.Leaf? && t.tag.Schema? then Accepted
    else if t.Generic? then AnyArgAccepts(valType, t.args)
    else Rejected
  }

  /** `any(type_validate(val_type, arg) for arg in args)`: stops at the first
      acceptance, and an exception from an argument propagates. */
  function AnyArgAccepts(valType: Tag, args: seq<TypeExpr>): Check
    decreases args
  {
    if args == [] then Rejected
    else
      match TypeValidate(valType, args[0])
      case Accepted => Accepted
      case Raises => Raises
      case Rejected => AnyArgAccepts(valType, args[1..])
  }

  /** No typing form anywhere inside `t`. */
  ghost predicate PlainClasses(t: TypeExpr)
    decreases t
  {
    match t
    case Leaf(_) => true
    case Generic(_, args) => !IssubclassRaises(t) && forall i :: 0 <= i < |args| ==> PlainClasses(args[i])
  }

  /** A non-`dict` value never makes `type_validate` raise, nor does a `dict`
      value against an annotation with no union or ClassVar inside. What it
      then accepts: exact class identity with some leaf (so `bool` does not
      satisfy `int` and `int` does not satisfy `float`), or a `dict` value
      against any `Settings` subclass leaf. `TypeValidateAccepts` states the
      acceptance for every call that does not raise. */
  lemma {:induction false} TypeValidateIsLeafMatch(valType: Tag, t: TypeExpr)
    requires valType != Dict || PlainClasses(t)
    ensures TypeValidate(valType, t) != Raises
    ensures TypeValidate(valType, t) == Accepted <==>
      Occurs(t, valType) || (valType == Dict && exists n :: Occurs(t, Schema(n)))
    decreases t, 1
  {
    match t
    case Leaf(x) => LeafIsLeafMatch(valType, x);
    case Generic(_, args) =>
      AnyArgIsLeafMatch(valType, t, args);
  }

  lemma LeafIsLeafMatch(valType: Tag, x: Tag)
    ensures TypeValidate(valType, Leaf(x)) != Raises
    ensures TypeValidate(valType, Leaf(x)) == Accepted <==>
      x == valType || (valType == Dict && x.Schema?)
  {
  }

  lemma {:induction false} AnyArgIsLeafMatch(valType: Tag, t: TypeExpr, args: seq<TypeExpr>)
    requires t.Generic? && |args| <= |t.args| && args == t.args[|t.args| - |args|..]
    requires valType != Dict || PlainClasses(t)
    ensures AnyArgAccepts(valType, args) != Raises
    ensures AnyArgAccepts(valType, args) == Accepted <==>
      exists i :: 0 <= i < |args| && (Occurs(args[i], valType) || (valType == Dict && exists n :: Occurs(args[i], Schema(n))))
    decreases t, 0, |args|
  {
    if args != [] {
      assert args[0] == t.args[|t.args| - |args|];
      TypeValidateIsLeafMatch(valType, args[0]);
      assert args[1..] == t.args[|t.args| - |args[1..]|..];
      AnyArgIsLeafMatch(valType, t, args[1..]);
      assert forall i :: 1 <= i < |args| ==> args[1..][i - 1] == args[i];
    }
  }

  /** What `type_validate` accepts, for every call that does not raise, with
      typing forms allowed anywhere inside the annotation: `any` stops at the
      first accepting argument, so a `dict` value against `dict[S, int | str]`
      is accepted at `S` before the union is reached. */
  lemma {:induction false} TypeValidateAccepts(valType: Tag, t: TypeExpr)
    requires TypeValidate(valType, t) != Raises
    ensures TypeValidate(valType, t) == Accepted <==>
      Occurs(t, valType) || (valType == Dict && exists n :: Occurs(t, Schema(n)))
    decreases t, 1
  {
    match t
    case Leaf(x) => LeafIsLeafMatch(valType, x);
    case Generic(_, args) =>
      AnyArgAcceptsMatch(valType, t, args);
  }

  lemma {:induction false} AnyArgAcceptsMatch(valType: Tag, t: TypeExpr, args: seq<TypeExpr>)
    requires t.Generic? && |args| <= |t.args| && args == t.args[|t.args| - |args|..]
    requires AnyArgAccepts(valType, args) != Raises
    ensures AnyArgAccepts(valType, args) == Accepted <==>
      exists i :: 0 <= i < |args| && (Occurs(args[i], valType) || (valType == Dict && exists n :: Occurs(args[i], Schema(n))))
    decreases t, 0, |args|
  {
    if args != [] {
      assert args[0] == t.args[|t.args| - |args|];
      TypeValidateAccepts(valType, args[0]);
      if TypeValidate(valType, args[0]) == Rejected {
        assert args[1..] == t.args[|t.args| - |args[1..]|..];
        AnyArgAcceptsMatch(valType, t, args[1..]);
        assert forall i :: 1 <= i < |args| ==> args[1..][i - 1] == args[i];
      }
    }
  }

  /** A `dict` value against a union annotation makes `type_validate` raise
      before any argument is inspected. */
  lemma DictAgainstUnionRaises(args: seq<TypeExpr>)
    ensures TypeValidate(Dict, Generic(UnionOf, args)) == Raises
  {
  }
}

=== FILE: field.dfy ===
/** The field descriptor record and the UndefinedField sentinel. */
module Fields {
  import opened Values

  /** An immutable (name, default, type) triple, one per annotated name. */
  datatype Field = Field(name: string, default: Value, typ: TypeExpr)

  /** The sentinel is falsy, so a truthiness-based presence check reads it as
      "not set"; it is the only value of its class, so a check by class is a
      check by identity. */
  lemma UndefinedIsFalsySingleton(v: Value)
    ensures v == Undefined ==> !Truthy(v)
    ensures RuntimeTag(v) == UndefinedT <==> v == Undefined
  {
  }
}

=== FILE: introspect.dfy ===
/** Schema introspection of setoml/utils.py (`_collect_annotations`,
    `get_fields`) over explicit class declarations instead of reflection. */
module Introspect {
  import opened Values
  import opened OrderedDict
  import opened Fields

  /** A class body as `get_type_hints` and `getattr` see it: its parent, its
      own annotations in declaration order, and its own class attributes. */
  datatype ClassDecl = ClassDecl(parent: Option<string>, annotations: seq<(string, TypeExpr)>, attrs: map<string, Value>)

  /** Every class of the program, by name. */
  type Registry = map<string, ClassDecl>

  /** `reversed(inspect.getmro(cls)[:-1])`: the parent chain from the most
      base class down to `c`, `object` excluded. A parent outside the
      registry ends the chain, and so does a revisited class (Python never
      builds a cyclic hierarchy). */
  function Mro(reg: Registry, c: string): (r: seq<string>)
    ensures forall x :: x in r ==> x in reg
    ensures c in reg ==> |r| > 0 && r[|r| - 1] == c
    ensures c !in reg ==> r == []
    ensures Linked(reg, r)
    ensures r != [] ==> BaseEnd(reg, r, {})
  {
    if c in reg then MroFrom(reg, c, {}) else []
  }

  /** Each class of the chain after the first is a direct subclass of the
      one before it, and no class occurs twice. */
  predicate Linked(reg: Registry, r: seq<string>)
  {
    && (forall i :: 0 <= i < |r| ==> r[i] in reg)
    && (forall i :: 0 < i < |r| ==> reg[r[i]].parent == Some(r[i - 1]))
    && (forall i, j :: 0 <= i < j < |r| ==> r[i] != r[j])
  }

  /** The chain starts at a class without a parent to follow: it has none,
      its parent is not declared, or the parent was already visited. */
  predicate BaseEnd(reg: Registry, r: seq<string>, seen: set<string>)
    requires |r| > 0 && r[0] in reg
  {
    match reg[r[0]].parent
    case None => true
    case Some(p) => p !in reg || p in seen || p in r
  }

  function MroFrom(reg: Registry, c: string, seen: set<string>): (r: seq<string>)
    requires c in reg && c !in seen
    ensures forall x :: x in r ==> x in reg && x !in seen
    ensures |r| > 0 && r[|r| - 1] == c
    ensures Linked(reg, r)
    ensures BaseEnd(reg, r, seen)
    decreases reg.Keys - seen
  {
    match reg[c].parent
    case Some(p) =>
      if p in reg && p !in seen && p != c then
        var pre := MroFrom(reg, p, seen + {c});
        assert (pre + [c])[0] == pre[0];
        pre + [c]
      else [c]
    case None => [c]
  }

  /** `get_type_hints` of the class whose chain is `chain`: every class's
      annotations merged into one ordered dict, base first. */
  function Hints(reg: Registry, chain: seq<string>): (r: ODict<TypeExpr>)
    requires forall x :: x in chain ==> x in reg
    ensures Valid(r)
    decreases |chain|
  {
    if chain == [] then Empty()
    else PutAll(Hints(reg, chain[..|chain| - 1]), reg[chain[|chain| - 1]].annotations)
  }

  /** All annotation pairs of a chain, base first. */
  function AllPairs(reg: Registry, chain: seq<string>): seq<(string, TypeExpr)>
    requires forall x :: x in chain ==> x in reg
    decreases |chain|
  {
    if chain == [] then [] else AllPairs(reg, chain[..|chain| - 1]) + reg[chain[|chain| - 1]].annotations
  }

  /** `_collect_annotations` exactly as written: start from an empty dict and
      update it with `get_type_hints(base)` for each base, most base first.
      In a single-inheritance chain `base.__mro__` is the part of the chain
      up to `base`, so its hints are those of that prefix. */
  function CollectFold(reg: Registry, chain: seq<string>, n: nat): (r: ODict<TypeExpr>)
    requires forall x :: x in chain ==> x in reg
    requires n <= |chain|
    ensures Valid(r)
  {
    if n == 0 then Empty()
    else PutAll(CollectFold(reg, chain, n - 1), Items(Hints(reg, chain[..n])))
  }

  function CollectAnnotations(reg: Registry, c: string): (r: ODict<TypeExpr>)
    ensures Valid(r)
  {
    var mro := Mro(reg, c);
    CollectFold(reg, mro, |mro|)
  }

  /** Updating with every base's hints in turn is the same as taking the
      hints of the whole chain once: re-merging the inherited part is a no-op. */
  lemma {:induction false} CollectFoldIsHints(reg: Registry, chain: seq<string>, n: nat)
    requires forall x :: x in chain ==> x in reg
    requires n <= |chain|
    ensures CollectFold(reg, chain, n) == Hints(reg, chain[..n])
  {
    if n > 0 {
      CollectFoldIsHints(reg, chain, n - 1);
      var pre, anns := Hints(reg, chain[..n - 1]), reg[chain[n - 1]].annotations;
      assert chain[..n][..n - 1] == chain[..n - 1] && chain[..n][n - 1] == chain[n - 1];
      assert Hints(reg, chain[..n]) == PutAll(pre, anns);
      RefreshIsUpdate(pre, anns);
    }
  }

  lemma {:induction false} HintsIsPairMerge(reg: Registry, chain: seq<string>)
    requires forall x :: x in chain ==> x in reg
    ensures Hints(reg, chain) == PutAll(Empty(), AllPairs(reg, chain))
    decreases |chain|
  {
    if chain != [] {
      var pre := chain[..|chain| - 1];
      HintsIsPairMerge(reg, pre);
      PutAllAppend(Empty(), AllPairs(reg, pre), reg[chain[|chain| - 1]].annotations);
    }
  }

  /** `_collect_annotations(cls)`: the annotated names of every class of the
      chain, each once, in the order of their first (most base) appearance,
      each with the type of its last (most derived) declaration. */
  lemma CollectAnnotationsSpec(reg: Registry, c: string)
    ensures BuiltFrom(AllPairs(reg, Mro(reg, c)), CollectAnnotations(reg, c))
  {
    var mro := Mro(reg, c);
    CollectFoldIsHints(reg, mro, |mro|);
    assert mro[..|mro|] == mro;
    HintsIsPairMerge(reg, mro);
    PutAllFromEmpty(AllPairs(reg, mro));
  }

  /** What `get_fields` reads from: a class object or an instance. */
  datatype Target = OfClass(cls: string) | OfInstance(obj: Obj)

  function ClassOf(t: Target): string
  {
    match t
    case OfClass(c) => c
    case OfInstance(o) => o.cls
  }

  /** Class-attribute lookup along a chain, most derived class first. */
  function ClassAttr(reg: Registry, chain: seq<string>, name: string): (r: Option<Value>)
    requires forall x :: x in chain ==> x in reg
    ensures r.None? <==> forall i :: 0 <= i < |chain| ==> name !in reg[chain[i]].attrs
    ensures r.Some? ==> exists i :: 0 <= i < |chain| && name in reg[chain[i]].attrs && r.value == reg[chain[i]].attrs[name] &&
                          forall j :: i < j < |chain| ==> name !in reg[chain[j]].attrs
    decreases |chain|
  {
    if chain == [] then None
    else
      var last := reg[chain[|chain| - 1]];
      if name in last.attrs then Some(last.attrs[name])
      else ClassAttr(reg, chain[..|chain| - 1], name)
  }

  /** `getattr(obj, name, None)`: the instance dict first, then the classes
      from most derived to most base, else None. */
  function Getattr(reg: Registry, t: Target, name: string): (r: Value)
    ensures t.OfInstance? && name in t.obj.attrs ==> r == t.obj.attrs[name]
    ensures !(t.OfInstance? && name in t.obj.attrs) ==>
      var chain := Mro(reg, ClassOf(t));
      && ((exists i :: 0 <= i < |chain| && name in reg[chain[i]].attrs) ==>
            exists i :: 0 <= i < |chain| && name in reg[chain[i]].attrs && r == reg[chain[i]].attrs[name] &&
              forall j :: i < j < |chain| ==> name !in reg[chain[j]].attrs)
      && ((forall i :: 0 <= i < |chain| ==> name !in reg[chain[i]].attrs) ==> r == NoneV)
  {
    if t.OfInstance? && name in t.obj.attrs then t.obj.attrs[name]
    else
      match ClassAttr(reg, Mro(reg, ClassOf(t)), name)
      case Some(v) => v
      case None => NoneV
  }

  /** Names starting with `__` are never fields. */
  predicate IsDunder(name: string)
  {
    |name| >= 2 && name[..2] == "__"
  }

  /** The names of `keys` that do not start with `__`, in order. */
  function PublicNames(keys: seq<string>): (r: seq<string>)
    ensures forall k :: k in r <==> k in keys && !IsDunder(k)
    decreases |keys|
  {
    if keys == [] then []
    else
      var pre := keys[..|keys| - 1];
      var k := keys[|keys| - 1];
      assert keys == pre + [k];
      if IsDunder(k) then PublicNames(pre) else PublicNames(pre) + [k]
  }

  /** Dropping names keeps the others in their relative order. */
  lemma {:induction false} PublicNamesKeepOrder(keys: seq<string>, names: seq<string>)
    requires forall k :: k in keys ==> k in names
    requires forall i, j :: 0 <= i < j < |keys| ==> IndexOf(names, keys[i]) < IndexOf(names, keys[j])
    ensures forall i, j :: 0 <= i < j < |PublicNames(keys)| ==>
      IndexOf(names, PublicNames(keys)[i]) < IndexOf(names, PublicNames(keys)[j])
    decreases |keys|
  {
    if keys != [] {
      var pre := keys[..|keys| - 1];
      var k := keys[|keys| - 1];
      PublicNamesKeepOrder(pre, names);
      if !IsDunder(k) {
        var ps := PublicNames(keys);
        forall i | 0 <= i < |ps| - 1
          ensures IndexOf(names, ps[i]) < IndexOf(names, k)
        {
          assert ps[i] in pre;
          var a :| 0 <= a < |pre| && pre[a] == ps[i];
          assert keys[a] == ps[i];
        }
      }
    }
  }

  /** One field per public name of `keys`, in order. */
  function FieldsFor(reg: Registry, t: Target, keys: seq<string>, types: map<string, TypeExpr>): (r: seq<Field>)
    requires forall k :: k in keys ==> k in types
    ensures |r| == |PublicNames(keys)|
    ensures forall i :: 0 <= i < |r| ==> r[i].name == PublicNames(keys)[i]
    ensures forall i :: 0 <= i < |r| ==> r[i].typ == types[r[i].name] && r[i].default == Getattr(reg, t, r[i].name)
    decreases |keys|
  {
    if keys == [] then []
    else
      var pre := keys[..|keys| - 1];
      var k := keys[|keys| - 1];
      if IsDunder(k) then FieldsFor(reg, t, pre, types)
      else FieldsFor(reg, t, pre, types) + [Field(k, Getattr(reg, t, k), types[k])]
  }

  /** `get_fields(obj)`. */
  function GetFields(reg: Registry, t: Target): seq<Field>
  {
    var hints := CollectAnnotations(reg, ClassOf(t));
    FieldsFor(reg, t, hints.keys, hints.vals)
  }

  /** `get_fields` yields one field per collected public name, in order of
      first (most base) declaration; each carries the most derived declared
      type and, as default, the object's current attribute value (None when
      it has none). */
  lemma GetFieldsSpec(reg: Registry, t: Target)
    ensures forall k ::
      (exists i :: 0 <= i < |GetFields(reg, t)| && GetFields(reg, t)[i].name == k) <==>
      (k in Names(AllPairs(reg, Mro(reg, ClassOf(t)))) && !IsDunder(k))
    ensures forall i, j :: 0 <= i < j < |GetFields(reg, t)| ==>
      IndexOf(Names(AllPairs(reg, Mro(reg, ClassOf(t)))), GetFields(reg, t)[i].name) <
      IndexOf(Names(AllPairs(reg, Mro(reg, ClassOf(t)))), GetFields(reg, t)[j].name)
    ensures forall i :: 0 <= i < |GetFields(reg, t)| ==>
      LastValue(AllPairs(reg, Mro(reg, ClassOf(t))), GetFields(reg, t)[i].name, GetFields(reg, t)[i].typ)
    ensures forall i :: 0 <= i < |GetFields(reg, t)| ==>
      GetFields(reg, t)[i].default == Getattr(reg, t, GetFields(reg, t)[i].name)
  {
    var hints := CollectAnnotations(reg, ClassOf(t));
    var ps := AllPairs(reg, Mro(reg, ClassOf(t)));
    var fs := GetFields(reg, t);
    CollectAnnotationsSpec(reg, ClassOf(t));
    PublicNamesKeepOrder(hints.keys, Names(ps));
    forall k | k in PublicNames(hints.keys)
      ensures exists i :: 0 <= i < |fs| && fs[i].name == k
    {
      var i :| 0 <= i < |PublicNames(hints.keys)| && PublicNames(hints.keys)[i] == k;
      assert fs[i].name == k;
    }
  }
}

=== FILE: merge.dfy ===
/** The shallow dict merge both loaders perform: later mappings' top-level
    keys overwrite earlier ones, whole values at a time. */
module Merge {
  import opened Values

  /** `{k: v for m in maps for k, v in m.items()}`, equivalently
      `settings.update(m)` for each `m` in turn. */
  function MergeAll(maps: seq<Mapping>): (r: Mapping)
    ensures forall k :: k in r <==> exists i :: 0 <= i < |maps| && k in maps[i]
    ensures forall k :: k in r ==> LastHolder(maps, k, r[k])
    decreases |maps|
  {
    if maps == [] then map[]
    else
      var pre := maps[..|maps| - 1];
      var m := maps[|maps| - 1];
      MergeStep(pre, m, MergeAll(pre));
      assert maps == pre + [m];
      MergeAll(pre) + m
  }

  lemma MergeStep(pre: seq<Mapping>, m: Mapping, acc: Mapping)
    requires forall k :: k in acc <==> exists i :: 0 <= i < |pre| && k in pre[i]
    requires forall k :: k in acc ==> LastHolder(pre, k, acc[k])
    ensures forall k :: k in acc + m <==> exists i :: 0 <= i < |pre + [m]| && k in (pre + [m])[i]
    ensures forall k :: k in acc + m ==> LastHolder(pre + [m], k, (acc + m)[k])
  {
    var maps := pre + [m];
    forall k | k in acc + m
      ensures LastHolder(maps, k, (acc + m)[k])
    {
      if k in m {
        assert maps[|pre|] == m;
      } else {
        var i :| 0 <= i < |pre| && k in pre[i] && acc[k] == pre[i][k] && forall j :: i < j < |pre| ==> k !in pre[j];
        assert maps[i] == pre[i];
        forall j | i < j < |maps| ensures k !in maps[j] {
          if j < |pre| {
            assert maps[j] == pre[j];
          }
        }
      }
    }
    forall k | exists i :: 0 <= i < |maps| && k in maps[i]
      ensures k in acc + m
    {
      var i :| 0 <= i < |maps| && k in maps[i];
      if i < |pre| {
        assert maps[i] == pre[i];
      }
    }
  }

  /** `v` is the value of `k` in the last mapping that has `k`. */
  ghost predicate LastHolder(maps: seq<Mapping>, k: string, v: Value)
  {
    exists i :: 0 <= i < |maps| && k in maps[i] && v == maps[i][k] && forall j :: i < j < |maps| ==> k !in maps[j]
  }
}

=== FILE: odict.dfy ===
/** Python's insertion-ordered `dict` with string keys: `d[k] = v` keeps an
    existing key's position and appends a new one; `d.update(pairs)` does that
    for each pair in turn. */
module OrderedDict {

  datatype ODict<T> = ODict(keys: seq<string>, vals: map<string, T>)

  predicate Distinct(s: seq<string>)
  {
    forall i, j :: 0 <= i < j < |s| ==> s[i] != s[j]
  }

  /** The keys in insertion order, each once, and exactly the map's domain. */
  ghost predicate Valid<T>(d: ODict<T>)
  {
    Distinct(d.keys) && (forall k :: k in d.vals <==> k in d.keys)
  }

  function Empty<T>(): (r: ODict<T>)
    ensures Valid(r)
  {
    ODict([], map[])
  }

  /** `d[k] = v`. */
  function Put<T>(d: ODict<T>, k: string, v: T): (r: ODict<T>)
    requires Valid(d)
    ensures Valid(r)
    ensures r.vals == d.vals[k := v]
    ensures k in d.vals ==> r.keys == d.keys
    ensures k !in d.vals ==> r.keys == d.keys + [k]
  {
    if k in d.vals then ODict(d.keys, d.vals[k := v]) else ODict(d.keys + [k], d.vals[k := v])
  }

  /** `d.update(ps)` for a sequence of (key, value) pairs, applied left to right. */
  function PutAll<T>(d: ODict<T>, ps: seq<(string, T)>): (r: ODict<T>)
    requires Valid(d)
    ensures Valid(r)
    decreases |ps|
  {
    if ps == [] then d
    else
      var last := ps[|ps| - 1];
      Put(PutAll(d, ps[..|ps| - 1]), last.0, last.1)
  }

  /** The pairs `(k, m[k])` for the keys `ks`, in order. */
  function Pairs<T>(ks: seq<string>, m: map<string, T>): (r: seq<(string, T)>)
    requires forall k :: k in ks ==> k in m
    ensures |r| == |ks|
    ensures forall i :: 0 <= i < |r| ==> r[i] == (ks[i], m[ks[i]])
    decreases |ks|
  {
    if ks == [] then [] else Pairs(ks[..|ks| - 1], m) + [(ks[|ks| - 1], m[ks[|ks| - 1]])]
  }

  /** `d.items()`, in order. */
  function Items<T>(d: ODict<T>): (r: seq<(string, T)>)
    requires Valid(d)
  {
    Pairs(d.keys, d.vals)
  }

  function Names<T>(ps: seq<(string, T)>): (r: seq<string>)
    ensures |r| == |ps|
    ensures forall i :: 0 <= i < |ps| ==> r[i] == ps[i].0
  {
    seq(|ps|, i requires 0 <= i < |ps| => ps[i].0)
  }

  /** Position of the first occurrence of `x` in `s`. */
  function IndexOf(s: seq<string>, x: string): (i: nat)
    requires x in s
    ensures i < |s| && s[i] == x && x !in s[..i]
  {
    if s[0] == x then 0 else 1 + IndexOf(s[1..], x)
  }

  lemma IndexOfAppend(s: seq<string>, x: string, y: string)
    requires x in s
    ensures IndexOf(s + [y], x) == IndexOf(s, x)
  {
    var i := IndexOf(s, x);
    assert (s + [y])[..i] == s[..i];
    IndexOfUnique(s + [y], x, i);
  }

  lemma IndexOfUnique(s: seq<string>, x: string, i: nat)
    requires i < |s| && s[i] == x && x !in s[..i]
    ensures IndexOf(s, x) == i
  {
  }

  /** One update over `p + q` is the update over `p` followed by the update
      over `q`. */
  lemma {:induction false} PutAllAppend<T>(d: ODict<T>, p: seq<(string, T)>, q: seq<(string, T)>)
    requires Valid(d)
    ensures PutAll(d, p + q) == PutAll(PutAll(d, p), q)
    decreases |q|
  {
    if q == [] {
      assert p + q == p;
    } else {
      var q' := q[..|q| - 1];
      assert (p + q)[..|p + q| - 1] == p + q';
      assert (p + q)[|p + q| - 1] == q[|q| - 1];
      PutAllAppend(d, p, q');
    }
  }

  /** Updating never reorders or drops a key already present: the old keys
      stay a prefix and the old domain is kept. */
  lemma {:induction false} PutAllExtends<T>(d: ODict<T>, ps: seq<(string, T)>)
    requires Valid(d)
    ensures |d.keys| <= |PutAll(d, ps).keys|
    ensures PutAll(d, ps).keys[..|d.keys|] == d.keys
    ensures forall k :: k in PutAll(d, ps).vals <==> k in d.vals || k in Names(ps)
    decreases |ps|
  {
    if ps != [] {
      var ps' := ps[..|ps| - 1];
      PutAllExtends(d, ps');
      assert Names(ps) == Names(ps') + [ps[|ps| - 1].0];
      var e := PutAll(d, ps');
      if ps[|ps| - 1].0 !in e.vals {
        assert (e.keys + [ps[|ps| - 1].0])[..|d.keys|] == e.keys[..|d.keys|];
      }
    }
  }

  lemma PutAllSnoc<T>(d: ODict<T>, ps: seq<(string, T)>, x: (string, T))
    requires Valid(d)
    ensures PutAll(d, ps + [x]) == Put(PutAll(d, ps), x.0, x.1)
  {
    assert (ps + [x])[..|ps|] == ps;
  }

  lemma PairsSnoc<T>(ks: seq<string>, k: string, m: map<string, T>)
    requires forall k' :: k' in ks + [k] ==> k' in m
    ensures Pairs(ks + [k], m) == Pairs(ks, m) + [(k, m[k])]
  {
    assert (ks + [k])[..|ks|] == ks;
  }

  /** Re-applying, onto `d`, the pairs of a key list that either is a prefix
      of `d`'s keys or extends them: keys already in `d` are overwritten in
      place, the rest are appended in order. */
  lemma {:induction false} ReplayKeys<T>(d: ODict<T>, ks: seq<string>, m: map<string, T>)
    requires Valid(d) && Distinct(ks)
    requires forall k :: k in ks ==> k in m
    requires PrefixShaped(d.keys, ks)
    ensures Replayed(d, ks, m, PutAll(d, Pairs(ks, m)))
    decreases |ks|
  {
    if ks != [] {
      var n := |ks| - 1;
      DropLast(d.keys, ks);
      ReplayKeys(d, ks[..n], m);
      PutAllPairsLast(d, ks, m);
      ReplayStep(d, ks, m, PutAll(d, Pairs(ks[..n], m)));
    }
  }

  /** Replaying a key list is replaying all but its last key, then that key. */
  lemma PutAllPairsLast<T>(d: ODict<T>, ks: seq<string>, m: map<string, T>)
    requires Valid(d) && ks != []
    requires forall k :: k in ks ==> k in m
    ensures PutAll(d, Pairs(ks, m)) == Put(PutAll(d, Pairs(ks[..|ks| - 1], m)), ks[|ks| - 1], m[ks[|ks| - 1]])
  {
    var ps := Pairs(ks, m);
    assert ps[..|ps| - 1] == Pairs(ks[..|ks| - 1], m);
  }

  /** `ks` is a prefix of `dk`, or extends it. */
  ghost predicate PrefixShaped(dk: seq<string>, ks: seq<string>)
  {
    && (|ks| <= |dk| ==> ks == dk[..|ks|])
    && (|dk| < |ks| ==> ks[..|dk|] == dk)
  }

  /** `r` is `d` with the pairs of `ks` replayed onto it. */
  ghost predicate Replayed<T>(d: ODict<T>, ks: seq<string>, m: map<string, T>, r: ODict<T>)
    requires forall k :: k in ks ==> k in m
  {
    ReplayedKeys(d, ks, r) && ReplayedVals(d, ks, m, r)
  }

  /** The key order after a replay: `d`'s while the list stays within it,
      the list itself once it extends it. */
  ghost predicate ReplayedKeys<T>(d: ODict<T>, ks: seq<string>, r: ODict<T>)
  {
    r.keys == (if |ks| <= |d.keys| then d.keys else ks)
  }

  /** The values after a replay: the listed keys hold `m`'s values, the
      other keys of `d` keep theirs. */
  ghost predicate ReplayedVals<T>(d: ODict<T>, ks: seq<string>, m: map<string, T>, r: ODict<T>)
    requires forall k :: k in ks ==> k in m
  {
    && (forall k :: k in r.vals <==> k in d.vals || k in ks)
    && (forall k :: k in ks ==> r.vals[k] == m[k])
    && (forall k :: k in d.vals && k !in ks ==> r.vals[k] == d.vals[k])
  }

  lemma DropLast(dk: seq<string>, ks: seq<string>)
    requires Distinct(ks) && ks != [] && PrefixShaped(dk, ks)
    ensures Distinct(ks[..|ks| - 1]) && PrefixShaped(dk, ks[..|ks| - 1])
  {
    var n := |ks| - 1;
    var ks' := ks[..n];
    forall i, j | 0 <= i < j < |ks'| ensures ks'[i] != ks'[j] {
      assert ks'[i] == ks[i] && ks'[j] == ks[j];
    }
    if |dk| < n {
      assert ks'[..|dk|] == ks[..|dk|];
    }
  }

  lemma ReplayStep<T>(d: ODict<T>, ks: seq<string>, m: map<string, T>, prev: ODict<T>)
    requires Valid(d) && Valid(prev) && Distinct(ks) && ks != []
    requires forall k' :: k' in ks ==> k' in m
    requires PrefixShaped(d.keys, ks)
    requires Replayed(d, ks[..|ks| - 1], m, prev)
    ensures Replayed(d, ks, m, Put(prev, ks[|ks| - 1], m[ks[|ks| - 1]]))
  {
    ReplayValsStep(d, ks, m, prev);
    ReplayKeysStep(d, ks, prev, m[ks[|ks| - 1]]);
  }

  /** The values after replaying one more key. */
  lemma ReplayValsStep<T>(d: ODict<T>, ks: seq<string>, m: map<string, T>, prev: ODict<T>)
    requires Valid(prev) && ks != []
    requires forall k' :: k' in ks ==> k' in m
    requires ReplayedVals(d, ks[..|ks| - 1], m, prev)
    ensures ReplayedVals(d, ks, m, Put(prev, ks[|ks| - 1], m[ks[|ks| - 1]]))
  {
    assert ks == ks[..|ks| - 1] + [ks[|ks| - 1]];
  }

  /** The key order after replaying one more key: unchanged while the list
      is within `d`'s keys, the list itself once it extends them. */
  lemma ReplayKeysStep<T>(d: ODict<T>, ks: seq<string>, prev: ODict<T>, v: T)
    requires Valid(prev) && Distinct(ks) && ks != []
    requires PrefixShaped(d.keys, ks)
    requires ReplayedKeys(d, ks[..|ks| - 1], prev)
    ensures ReplayedKeys(d, ks, Put(prev, ks[|ks| - 1], v))
  {
    var n := |ks| - 1;
    var ks', k := ks[..n], ks[n];
    assert ks == ks' + [k];
    if n + 1 <= |d.keys| {
      assert d.keys[..n + 1][n] == k;
      assert k in prev.keys;
    } else {
      assert forall i :: 0 <= i < n ==> ks[i] == ks'[i];
      assert k !in ks';
      if n <= |d.keys| {
        assert ks' == d.keys;
      }
      assert k !in prev.keys;
    }
  }

  /** `d.update(dict(d, **ps))` equals `dict(d, **ps)`: refreshing a dict
      with an update of itself changes nothing further. */
  lemma RefreshIsUpdate<T>(d: ODict<T>, ps: seq<(string, T)>)
    requires Valid(d)
    ensures PutAll(d, Items(PutAll(d, ps))) == PutAll(d, ps)
  {
    var e := PutAll(d, ps);
    PutAllExtends(d, ps);
    assert PrefixShaped(d.keys, e.keys) by {
      if |e.keys| <= |d.keys| {
        assert e.keys == e.keys[..|d.keys|];
      }
    }
    ReplayKeys(d, e.keys, e.vals);
    SameDict(e, PutAll(d, Items(e)), d);
  }

  lemma SameDict<T>(e: ODict<T>, r: ODict<T>, d: ODict<T>)
    requires Valid(d) && Valid(e)
    requires forall k :: k in d.vals ==> k in e.vals
    requires |d.keys| <= |e.keys| && PrefixShaped(d.keys, e.keys)
    requires Replayed(d, e.keys, e.vals, r)
    ensures r == e
  {
    if |e.keys| <= |d.keys| {
      assert e.keys == d.keys[..|d.keys|] == d.keys;
    }
    assert r.keys == e.keys;
    assert r.vals == e.vals;
  }

  /** The reference meaning of building a dict from pairs: the keys are the
      distinct names, ordered by first occurrence; each key holds the value of
      its LAST pair. */
  lemma {:induction false} PutAllFromEmpty<T>(ps: seq<(string, T)>)
    ensures BuiltFrom(ps, PutAll(Empty(), ps))
    decreases |ps|
  {
    if ps != [] {
      var ps' := ps[..|ps| - 1];
      var x := ps[|ps| - 1];
      assert ps == ps' + [x];
      PutAllFromEmpty(ps');
      PutAllSnoc(Empty(), ps', x);
      BuiltFromStep(ps', x, PutAll(Empty(), ps'));
    }
  }

  /** `r` has exactly the names of `ps` as keys, in first-occurrence order,
      each holding the value of its last pair. */
  ghost predicate BuiltFrom<T>(ps: seq<(string, T)>, r: ODict<T>)
  {
    && (forall k :: k in r.keys <==> k in Names(ps))
    && (forall i, j :: 0 <= i < j < |r.keys| ==> IndexOf(Names(ps), r.keys[i]) < IndexOf(Names(ps), r.keys[j]))
    && (forall k :: k in r.vals ==> LastValue(ps, k, r.vals[k]))
  }

  lemma BuiltFromStep<T>(ps: seq<(string, T)>, x: (string, T), prev: ODict<T>)
    requires Valid(prev) && BuiltFrom(ps, prev)
    ensures BuiltFrom(ps + [x], Put(prev, x.0, x.1))
  {
    assert Names(ps + [x]) == Names(ps) + [x.0];
    OrderStep(Names(ps), x.0, prev.keys, Put(prev, x.0, x.1).keys);
    LastValueStep(ps, x, prev);
  }

  lemma OrderStep(ns: seq<string>, y: string, ks: seq<string>, ks2: seq<string>)
    requires forall k :: k in ks <==> k in ns
    requires forall i, j :: 0 <= i < j < |ks| ==> IndexOf(ns, ks[i]) < IndexOf(ns, ks[j])
    requires ks2 == if y in ks then ks else ks + [y]
    ensures forall k :: k in ks2 <==> k in ns + [y]
    ensures forall i, j :: 0 <= i < j < |ks2| ==> IndexOf(ns + [y], ks2[i]) < IndexOf(ns + [y], ks2[j])
  {
    OrderShift(ns, y, ks);
    if y !in ks {
      OrderStepNew(ns, y, ks);
    }
  }

  /** Appending a name keeps the first positions of the names before it. */
  lemma OrderShift(ns: seq<string>, y: string, ks: seq<string>)
    requires forall k :: k in ks ==> k in ns
    requires forall i, j :: 0 <= i < j < |ks| ==> IndexOf(ns, ks[i]) < IndexOf(ns, ks[j])
    ensures forall i, j :: 0 <= i < j < |ks| ==> IndexOf(ns + [y], ks[i]) < IndexOf(ns + [y], ks[j])
  {
    forall i | 0 <= i < |ks|
      ensures IndexOf(ns + [y], ks[i]) == IndexOf(ns, ks[i])
    {
      IndexOfAppend(ns, ks[i], y);
    }
  }

  /** A new name goes last, after every name already present. */
  lemma OrderStepNew(ns: seq<string>, y: string, ks: seq<string>)
    requires forall k :: k in ks <==> k in ns
    requires forall i, j :: 0 <= i < j < |ks| ==> IndexOf(ns + [y], ks[i]) < IndexOf(ns + [y], ks[j])
    requires y !in ks
    ensures forall i, j :: 0 <= i < j < |ks + [y]| ==> IndexOf(ns + [y], (ks + [y])[i]) < IndexOf(ns + [y], (ks + [y])[j])
  {
    var ks2 := ks + [y];
    IndexOfUnique(ns + [y], y, |ns|);
    forall i | 0 <= i < |ks|
      ensures IndexOf(ns + [y], ks2[i]) < |ns|
    {
      assert ks2[i] == ks[i] && ks[i] in ns;
      IndexOfAppend(ns, ks[i], y);
    }
  }

  lemma LastValueStep<T>(ps: seq<(string, T)>, x: (string, T), prev: ODict<T>)
    requires Valid(prev)
    requires forall k :: k in prev.vals ==> LastValue(ps, k, prev.vals[k])
    ensures forall k :: k in Put(prev, x.0, x.1).vals ==> LastValue(ps + [x], k, Put(prev, x.0, x.1).vals[k])
  {
    var r := Put(prev, x.0, x.1);
    forall k | k in r.vals
      ensures LastValue(ps + [x], k, r.vals[k])
    {
      if k == x.0 {
        assert (ps + [x])[|ps|] == (k, r.vals[k]);
      } else {
        var i :| 0 <= i < |ps| && ps[i] == (k, prev.vals[k]) && forall j :: i < j < |ps| ==> ps[j].0 != k;
        assert (ps + [x])[i] == ps[i];
      }
    }
  }

  /** `v` is the value of the last pair named `k`. */
  ghost predicate LastValue<T>(ps: seq<(string, T)>, k: string, v: T)
  {
    exists i :: 0 <= i < |ps| && ps[i] == (k, v) && forall j :: i < j < |ps| ==> ps[j].0 != k
  }
}

=== FILE: settings.dfy ===
/** The binder/validator of setoml/settings.py: `model_validate`,
    `files_existence`, `load` and `__repr__` of the `Settings` base class. */
module Settings {
  import opened Values
  import opened Fields
  import opened OrderedDict
  import opened Classifier
  import opened Introspect
  import opened Merge

  /** `Settings._ignore_fields`: the base class's own configuration knobs,
      never validated nor reported. */
  const ControlFields: set<string> :=
    {"app_name", "file_names", "secret_names", "skip_extras", "skip_missing_files", "_ignore_fields"}

  /** The `Settings` class body: its annotations in declaration order and its
      class-level defaults. */
  const SettingsDecl: ClassDecl := ClassDecl(
    None,
    [ ("app_name", Generic(UnionOf, [Leaf(Str), Leaf(NoneT)]))
    , ("file_names", Generic(UnionOf, [Generic(IterableOf, [Leaf(Str)]), Leaf(Str)]))
    , ("secret_names", Generic(UnionOf, [Generic(IterableOf, [Leaf(Str)]), Leaf(Str), Leaf(NoneT)]))
    , ("skip_extras", Leaf(Bool))
    , ("skip_missing_files", Leaf(Bool))
    , ("_ignore_fields", Generic(ClassVarOf, [Generic(SetOf, [Leaf(Str)])]))
    ],
    map[
      "app_name" := NoneV,
      "file_names" := StrV("settings.toml"),
      "secret_names" := NoneV,
      "skip_extras" := BoolV(true),
      "skip_missing_files" := BoolV(false),
      "_ignore_fields" := SetV(set n | n in ControlFields :: StrV(n))
    ])

  /** The outcome of an operation that mutates `self`: the instance as left
      behind, and the exception if one was raised. */
  datatype Run = Done(inst: Obj) | Failed(inst: Obj, error: Error)

  /** The keyword defaults of the generated `Settings.__init__`: every
      dataclass field except the `ClassVar`. */
  const InitDefaults: map<string, Value> := map[
    "app_name" := NoneV,
    "file_names" := StrV("settings.toml"),
    "secret_names" := NoneV,
    "skip_extras" := BoolV(true),
    "skip_missing_files" := BoolV(false)
  ]

  /** `cls()` for a nested schema, up to its `__post_init__`: the generated
      `__init__` stores the five dataclass defaults in the instance dict. */
  function FreshInstance(cls: string): (r: Obj)
    ensures r.cls == cls && r.attrs.Keys == InitDefaults.Keys
  {
    Obj(cls, InitDefaults)
  }

  /** `isinstance(v, n)` for a `Settings` subclass `n`. */
  predicate IsInstanceOf(reg: Registry, v: Value, n: string)
  {
    v.Instance? && n in Mro(reg, v.obj.cls)
  }

  /** The value `model_validate` considers for a field:
      `obj.get(f.name, f.default)`. */
  function Candidate(f: Field, obj: Mapping): Value
  {
    Get(obj, f.name, f.default)
  }

  /** The "Not set setting" condition: no default, not optional, and the
      mapping's value absent or falsy. */
  predicate MissingRequired(f: Field, obj: Mapping)
  {
    f.default == NoneV && !IsOptional(f.typ) && !Truthy(Get(obj, f.name, NoneV))
  }

  /** The body of `model_validate`'s loop for one non-control field: the
      value it assigns, or the exception it raises. */
  function BindField(reg: Registry, f: Field, obj: Mapping, fuel: nat): (r: Result<Value, Error>)
    ensures MissingRequired(f, obj) ==> r == Err(NotSet(f.name))
    ensures !MissingRequired(f, obj) && TypeValidate(RuntimeTag(Candidate(f, obj)), f.typ) == Rejected ==>
      r == Err(TypeMismatch(f.name))
    ensures r.Ok? ==> TypeValidate(RuntimeTag(Candidate(f, obj)), f.typ) == Accepted
    ensures r.Ok? && !IsSubsettings(RuntimeTag(Candidate(f, obj)), f.typ) ==> r.value == Candidate(f, obj)
    ensures r.Ok? && IsSubsettings(RuntimeTag(Candidate(f, obj)), f.typ) ==>
      f.typ.Leaf? && r.value.Instance? &&
      r.value.obj.cls == (if IsInstanceOf(reg, f.default, f.typ.tag.name) then f.default.obj.cls else f.typ.tag.name)
    ensures !MissingRequired(f, obj) && TypeValidate(RuntimeTag(Candidate(f, obj)), f.typ) == Raises ==>
      r == Err(NotAClass(f.name))
    ensures (!MissingRequired(f, obj) && TypeValidate(RuntimeTag(Candidate(f, obj)), f.typ) == Accepted &&
             !IsSubsettings(RuntimeTag(Candidate(f, obj)), f.typ)) ==> r == Ok(Candidate(f, obj))
    ensures (!MissingRequired(f, obj) && TypeValidate(RuntimeTag(Candidate(f, obj)), f.typ) == Accepted &&
             IsSubsettings(RuntimeTag(Candidate(f, obj)), f.typ)) ==>
        && (f.typ.Generic? ==> r == Err(NotAClass(f.name)))
        && (f.typ.Leaf? && fuel == 0 ==> r == Err(RecursionLimit))
    decreases fuel, 0
  {
    if MissingRequired(f, obj) then Err(NotSet(f.name))
    else
      var value := Candidate(f, obj);
      var vt := RuntimeTag(value);
      match TypeValidate(vt, f.typ)
      case Raises => Err(NotAClass(f.name))
      case Rejected => Err(TypeMismatch(f.name))
      case Accepted =>
        if !IsSubsettings(vt, f.typ) then Ok(value)
        else if f.typ.Generic? then
          // isinstance(default, list[S]) raises: a parameterised generic is not a class
          Err(NotAClass(f.name))
        else
          var n := f.typ.tag.name;
          var target := if IsInstanceOf(reg, f.default, n) then f.default.obj else FreshInstance(n);
          if fuel == 0 then Err(RecursionLimit)
          else
            match ModelValidate(reg, target, value.entries, fuel - 1)
            case Done(o) => Ok(Instance(o))
            case Failed(_, e) => Err(e)
  }

  /** A nested field with depth left binds to the outcome of validating
      its table on the default, when that is already an instance of the
      schema, else on a fresh instance of the schema: the instance it
      yields, or the error it raised. */
  lemma BindFieldNested(reg: Registry, f: Field, obj: Mapping, depth: nat)
    requires !MissingRequired(f, obj) && f.typ.Leaf? && IsSubsettings(RuntimeTag(Candidate(f, obj)), f.typ)
    ensures Candidate(f, obj).TableV? && f.typ.tag.Schema?
    ensures var n := f.typ.tag.name;
      var target := if IsInstanceOf(reg, f.default, n) then f.default.obj else FreshInstance(n);
      var run := ModelValidate(reg, target, Candidate(f, obj).entries, depth);
      BindField(reg, f, obj, depth + 1) == (if run.Done? then Ok(Instance(run.inst)) else Err(run.error))
  {
    NestedShape(Candidate(f, obj), f.typ);
    assert TypeValidate(Dict, f.typ) == Accepted;
  }

  predicate DistinctNames(fields: seq<Field>)
  {
    forall i, j :: 0 <= i < j < |fields| ==> fields[i].name != fields[j].name
  }

  /** `k` has the same binding, or the same absence, in both maps. */
  predicate SameAt(a: map<string, Value>, b: map<string, Value>, k: string)
  {
    (k in a <==> k in b) && (k in a ==> a[k] == b[k])
  }

  /** The names a field loop may assign. */
  predicate Assignable(fields: seq<Field>, k: string)
  {
    k !in ControlFields && exists i :: 0 <= i < |fields| && fields[i].name == k
  }

  /** Field `i` was assigned what `BindField` computes for it. */
  predicate BoundAs(reg: Registry, fields: seq<Field>, i: int, obj: Mapping, fuel: nat, attrs: map<string, Value>)
    requires 0 <= i < |fields|
  {
    fields[i].name in ControlFields ||
    (fields[i].name in attrs && BindField(reg, fields[i], obj, fuel) == Ok(attrs[fields[i].name]))
  }

  /** The loop of `model_validate` over the given fields: control fields are
      skipped, each other field is assigned in turn, and the first exception
      stops the loop with the earlier assignments kept. Only the names of
      non-control fields can change. */
  function ValidateFields(reg: Registry, inst: Obj, obj: Mapping, fields: seq<Field>, fuel: nat): (r: Run)
    ensures r.inst.cls == inst.cls
    ensures forall k :: !Assignable(fields, k) ==> SameAt(inst.attrs, r.inst.attrs, k)
    decreases fuel, 1, |fields|
  {
    if fields == [] then Done(inst)
    else
      var f := fields[0];
      var rest := fields[1..];
      assert forall k :: Assignable(rest, k) ==> Assignable(fields, k) by {
        forall k | Assignable(rest, k) ensures Assignable(fields, k) {
          var i :| 0 <= i < |rest| && rest[i].name == k;
          assert fields[i + 1].name == k;
        }
      }
      if f.name in ControlFields then ValidateFields(reg, inst, obj, rest, fuel)
      else
        match BindField(reg, f, obj, fuel)
        case Err(e) => Failed(inst, e)
        case Ok(v) =>
          assert Assignable(fields, f.name) by { assert fields[0].name == f.name; }
          ValidateFields(reg, Obj(inst.cls, inst.attrs[f.name := v]), obj, rest, fuel)
  }

  /** On success every non-control field holds what `BindField` computes for
      it; on failure the loop stopped at the first field that raised, with
      every earlier field assigned and every later one untouched. */
  lemma {:induction false} ValidateFieldsSpec(reg: Registry, inst: Obj, obj: Mapping, fields: seq<Field>, fuel: nat)
    requires DistinctNames(fields)
    ensures var r := ValidateFields(reg, inst, obj, fields, fuel);
      r.Done? ==> forall i :: 0 <= i < |fields| ==> BoundAs(reg, fields, i, obj, fuel, r.inst.attrs)
    ensures var r := ValidateFields(reg, inst, obj, fields, fuel);
      r.Failed? ==> exists i :: 0 <= i < |fields| && FailsAt(reg, fields, i, obj, fuel, inst, r)
    decreases |fields|
  {
    if fields != [] {
      var f := fields[0];
      var rest := fields[1..];
      assert DistinctNames(rest) by {
        forall i, j | 0 <= i < j < |rest| ensures rest[i].name != rest[j].name {
          assert rest[i] == fields[i + 1] && rest[j] == fields[j + 1];
        }
      }
      if f.name in ControlFields {
        ValidateFieldsSpec(reg, inst, obj, rest, fuel);
        LoopStepSkip(reg, inst, obj, fields, fuel, ValidateFields(reg, inst, obj, rest, fuel));
      } else {
        match BindField(reg, f, obj, fuel)
        case Err(e) =>
          assert FailsAt(reg, fields, 0, obj, fuel, inst, Failed(inst, e));
        case Ok(v) =>
          var next := Obj(inst.cls, inst.attrs[f.name := v]);
          ValidateFieldsSpec(reg, next, obj, rest, fuel);
          LoopStepBind(reg, inst, next, obj, fields, fuel, v, ValidateFields(reg, next, obj, rest, fuel));
      }
    }
  }

  /** The loop failed at field `i`: every earlier field was assigned, field
      `i` raised the reported error, and no later name was touched. */
  ghost predicate FailsAt(reg: Registry, fields: seq<Field>, i: int, obj: Mapping, fuel: nat, inst: Obj, r: Run)
    requires 0 <= i < |fields| && r.Failed?
  {
    && fields[i].name !in ControlFields
    && BindField(reg, fields[i], obj, fuel) == Err(r.error)
    && (forall j :: 0 <= j < i ==> BoundAs(reg, fields, j, obj, fuel, r.inst.attrs))
    && (forall j :: i <= j < |fields| ==> SameAt(inst.attrs, r.inst.attrs, fields[j].name))
  }

  lemma LoopStepSkip(reg: Registry, inst: Obj, obj: Mapping, fields: seq<Field>, fuel: nat, r: Run)
    requires DistinctNames(fields) && |fields| > 0 && fields[0].name in ControlFields
    requires r.inst.cls == inst.cls
    requires r.Done? ==> forall i :: 0 <= i < |fields[1..]| ==> BoundAs(reg, fields[1..], i, obj, fuel, r.inst.attrs)
    requires r.Failed? ==> exists i :: 0 <= i < |fields[1..]| && FailsAt(reg, fields[1..], i, obj, fuel, inst, r)
    ensures r.Done? ==> forall i :: 0 <= i < |fields| ==> BoundAs(reg, fields, i, obj, fuel, r.inst.attrs)
    ensures r.Failed? ==> exists i :: 0 <= i < |fields| && FailsAt(reg, fields, i, obj, fuel, inst, r)
  {
    var rest := fields[1..];
    if r.Done? {
      forall i | 0 <= i < |fields| ensures BoundAs(reg, fields, i, obj, fuel, r.inst.attrs) {
        if i > 0 {
          assert BoundAs(reg, rest, i - 1, obj, fuel, r.inst.attrs);
          assert rest[i - 1] == fields[i];
        }
      }
    }
    if r.Failed? {
      var i :| 0 <= i < |rest| && FailsAt(reg, rest, i, obj, fuel, inst, r);
      assert rest[i] == fields[i + 1];
      forall j | 0 <= j < i + 1 ensures BoundAs(reg, fields, j, obj, fuel, r.inst.attrs) {
        if j > 0 {
          assert BoundAs(reg, rest, j - 1, obj, fuel, r.inst.attrs);
          assert rest[j - 1] == fields[j];
        }
      }
      forall j | i + 1 <= j < |fields| ensures SameAt(inst.attrs, r.inst.attrs, fields[j].name) {
        assert rest[j - 1] == fields[j];
      }
      assert FailsAt(reg, fields, i + 1, obj, fuel, inst, r);
    }
  }

  lemma LoopStepBind(reg: Registry, inst: Obj, next: Obj, obj: Mapping, fields: seq<Field>, fuel: nat, v: Value, r: Run)
    requires DistinctNames(fields) && |fields| > 0 && fields[0].name !in ControlFields
    requires BindField(reg, fields[0], obj, fuel) == Ok(v)
    requires next == Obj(inst.cls, inst.attrs[fields[0].name := v])
    requires r.inst.cls == inst.cls
    requires forall k :: !Assignable(fields[1..], k) ==> SameAt(next.attrs, r.inst.attrs, k)
    requires r.Done? ==> forall i :: 0 <= i < |fields[1..]| ==> BoundAs(reg, fields[1..], i, obj, fuel, r.inst.attrs)
    requires r.Failed? ==> exists i :: 0 <= i < |fields[1..]| && FailsAt(reg, fields[1..], i, obj, fuel, next, r)
    ensures r.Done? ==> forall i :: 0 <= i < |fields| ==> BoundAs(reg, fields, i, obj, fuel, r.inst.attrs)
    ensures r.Failed? ==> exists i :: 0 <= i < |fields| && FailsAt(reg, fields, i, obj, fuel, inst, r)
  {
    var rest := fields[1..];
    var f := fields[0];
    assert !Assignable(rest, f.name) by {
      forall i | 0 <= i < |rest| ensures rest[i].name != f.name {
        assert rest[i] == fields[i + 1];
      }
    }
    assert SameAt(next.attrs, r.inst.attrs, f.name);
    if r.Done? {
      forall i | 0 <= i < |fields| ensures BoundAs(reg, fields, i, obj, fuel, r.inst.attrs) {
        if i > 0 {
          assert BoundAs(reg, rest, i - 1, obj, fuel, r.inst.attrs);
          assert rest[i - 1] == fields[i];
        }
      }
    }
    if r.Failed? {
      var i :| 0 <= i < |rest| && FailsAt(reg, rest, i, obj, fuel, next, r);
      assert rest[i] == fields[i + 1];
      forall j | 0 <= j < i + 1 ensures BoundAs(reg, fields, j, obj, fuel, r.inst.attrs) {
        if j > 0 {
          assert BoundAs(reg, rest, j - 1, obj, fuel, r.inst.attrs);
          assert rest[j - 1] == fields[j];
        }
      }
      forall j | i + 1 <= j < |fields| ensures SameAt(inst.attrs, r.inst.attrs, fields[j].name) {
        assert rest[j - 1] == fields[j];
        assert fields[j].name != f.name;
      }
      assert FailsAt(reg, fields, i + 1, obj, fuel, inst, r);
    }
  }

  /** The fields of an instance have distinct names. */
  lemma FieldNamesDistinct(reg: Registry, t: Target)
    ensures DistinctNames(GetFields(reg, t))
  {
    GetFieldsSpec(reg, t);
  }

  /** `Settings.model_validate(self, obj)`: binds every non-control field of
      `self` from `obj`, in `get_fields` order. The class, the control fields
      and every attribute that is not a field keep their value. */
  function ModelValidate(reg: Registry, inst: Obj, obj: Mapping, fuel: nat): (r: Run)
    ensures r.inst.cls == inst.cls
    ensures forall k :: k in ControlFields ==> SameAt(inst.attrs, r.inst.attrs, k)
    ensures forall k :: (forall f :: f in GetFields(reg, OfInstance(inst)) ==> f.name != k) ==> SameAt(inst.attrs, r.inst.attrs, k)
    decreases fuel, 2
  {
    ValidateFields(reg, inst, obj, GetFields(reg, OfInstance(inst)), fuel)
  }

  /** `model_validate` field by field: on success every non-control field
      holds what `BindField` computes for it; on failure the first field that
      raised decides the error, the fields before it are assigned and the
      ones after it untouched. */
  lemma ModelValidateSpec(reg: Registry, inst: Obj, obj: Mapping, fuel: nat)
    ensures var r := ModelValidate(reg, inst, obj, fuel);
      var fs := GetFields(reg, OfInstance(inst));
      r.Done? ==> forall i :: 0 <= i < |fs| ==> BoundAs(reg, fs, i, obj, fuel, r.inst.attrs)
    ensures var r := ModelValidate(reg, inst, obj, fuel);
      var fs := GetFields(reg, OfInstance(inst));
      r.Failed? ==> exists i :: 0 <= i < |fs| && FailsAt(reg, fs, i, obj, fuel, inst, r)
  {
    FieldNamesDistinct(reg, OfInstance(inst));
    ValidateFieldsSpec(reg, inst, obj, GetFields(reg, OfInstance(inst)), fuel);
  }

  /** After a successful validation a plain (non-nested) field holds
      `obj.get(name, default)`, a value whose class its annotation accepts. */
  lemma SuccessBindsPlainValues(reg: Registry, inst: Obj, obj: Mapping, fuel: nat, f: Field)
    requires ModelValidate(reg, inst, obj, fuel).Done?
    requires f in GetFields(reg, OfInstance(inst)) && f.name !in ControlFields
    requires !IsSubsettings(RuntimeTag(Candidate(f, obj)), f.typ)
    ensures var s := ModelValidate(reg, inst, obj, fuel).inst;
      f.name in s.attrs && s.attrs[f.name] == Get(obj, f.name, f.default) &&
      TypeValidate(RuntimeTag(s.attrs[f.name]), f.typ) == Accepted
  {
    var fs := GetFields(reg, OfInstance(inst));
    ModelValidateSpec(reg, inst, obj, fuel);
    var i :| 0 <= i < |fs| && fs[i] == f;
    assert BoundAs(reg, fs, i, obj, fuel, ModelValidate(reg, inst, obj, fuel).inst.attrs);
  }

  /** A required field (no default, not optional) whose key is absent or
      falsy makes validation fail, whatever the other fields hold. A nested
      schema field is no exception: without a key and a default it is not
      built from an empty mapping. */
  lemma MissingRequiredFails(reg: Registry, inst: Obj, obj: Mapping, fuel: nat, f: Field)
    requires f in GetFields(reg, OfInstance(inst)) && f.name !in ControlFields
    requires f.default == NoneV && !IsOptional(f.typ) && !Truthy(Get(obj, f.name, NoneV))
    ensures ModelValidate(reg, inst, obj, fuel).Failed?
  {
    var fs := GetFields(reg, OfInstance(inst));
    ModelValidateSpec(reg, inst, obj, fuel);
    var i :| 0 <= i < |fs| && fs[i] == f;
    assert BindField(reg, f, obj, fuel) == Err(NotSet(f.name));
    assert !BoundAs(reg, fs, i, obj, fuel, ModelValidate(reg, inst, obj, fuel).inst.attrs);
  }

  /** A field list each of whose non-control fields already binds to the
      value `s` holds leaves `s` as it is. */
  lemma {:induction false} ValidateFieldsStable(reg: Registry, s: Obj, obj: Mapping, fs: seq<Field>, fuel: nat)
    requires forall i :: 0 <= i < |fs| && fs[i].name !in ControlFields ==>
      fs[i].name in s.attrs && BindField(reg, fs[i], obj, fuel) == Ok(s.attrs[fs[i].name])
    ensures ValidateFields(reg, s, obj, fs, fuel) == Done(s)
    decreases |fs|
  {
    if fs != [] {
      assert forall i :: 1 <= i < |fs| ==> fs[1..][i - 1] == fs[i];
      ValidateFieldsStable(reg, s, obj, fs[1..], fuel);
      if fs[0].name !in ControlFields {
        assert s.attrs[fs[0].name := s.attrs[fs[0].name]] == s.attrs;
      }
    }
  }

  /** A field whose default is the value it was bound to binds to that
      value again. */
  lemma {:induction false} BindFieldStable(reg: Registry, f: Field, obj: Mapping, fuel: nat, v: Value)
    requires BindField(reg, f, obj, fuel) == Ok(v)
    ensures BindField(reg, f.(default := v), obj, fuel) == Ok(v)
    decreases fuel, 1
  {
    var c := Candidate(f, obj);
    if v == NoneV {
      TypeValidateIsLeafMatch(NoneT, f.typ);
    }
    assert !MissingRequired(f.(default := v), obj);
    if IsSubsettings(RuntimeTag(c), f.typ) {
      NestedStable(reg, f, obj, fuel, v);
    } else {
      PlainStable(reg, f, obj, fuel, v);
    }
  }

  /** `BindFieldStable` for a field bound through the nested recursion. */
  lemma NestedStable(reg: Registry, f: Field, obj: Mapping, fuel: nat, v: Value)
    requires BindField(reg, f, obj, fuel) == Ok(v)
    requires IsSubsettings(RuntimeTag(Candidate(f, obj)), f.typ)
    requires !MissingRequired(f.(default := v), obj)
    ensures BindField(reg, f.(default := v), obj, fuel) == Ok(v)
    decreases fuel, 0, 2
  {
    var c := Candidate(f, obj);
    NestedShape(c, f.typ);
    var n := f.typ.tag.name;
    var target := if IsInstanceOf(reg, f.default, n) then f.default.obj else FreshInstance(n);
    var e := c.entries;
    var depth: nat := fuel - 1;
    if f.name in obj {
      NestedRun(reg, f, obj, fuel, depth, v, n, target, e);
      NestedStableKeyed(reg, f, obj, fuel, depth, v, n, target, e);
    } else {
      NestedDefaultShape(reg, f, obj, fuel, v, n);
      NestedStableDefault(reg, f, obj, fuel, v, n);
    }
  }

  /** The instance a successful nested binding yields is the result of
      validating its table on the default or a fresh instance. */
  lemma NestedRun(reg: Registry, f: Field, obj: Mapping, fuel: nat, depth: nat, v: Value, n: string, target: Obj, e: Mapping)
    requires BindField(reg, f, obj, fuel) == Ok(v)
    requires IsSubsettings(RuntimeTag(Candidate(f, obj)), f.typ)
    requires f.typ == Leaf(Schema(n)) && Candidate(f, obj) == TableV(e) && fuel == depth + 1
    requires target == (if IsInstanceOf(reg, f.default, n) then f.default.obj else FreshInstance(n))
    ensures v.Instance? && ModelValidate(reg, target, e, depth) == Done(v.obj)
  {
    BindFieldNested(reg, f, obj, depth);
  }

  /** A nested field bound from its default table yields an instance of
      the schema itself. */
  lemma NestedDefaultShape(reg: Registry, f: Field, obj: Mapping, fuel: nat, v: Value, n: string)
    requires BindField(reg, f, obj, fuel) == Ok(v) && f.name !in obj
    requires IsSubsettings(RuntimeTag(Candidate(f, obj)), f.typ) && f.typ == Leaf(Schema(n))
    ensures f.default.TableV? && v.Instance? && v.obj.cls == n
  {
    assert Candidate(f, obj) == f.default;
    NestedShape(f.default, f.typ);
    assert !IsInstanceOf(reg, f.default, n);
  }

  /** A nested binding that succeeded was for a plain schema annotation
      and a `dict` value. */
  lemma NestedShape(c: Value, t: TypeExpr)
    requires IsSubsettings(RuntimeTag(c), t)
    ensures c.TableV? && (t.Leaf? ==> t.tag.Schema?)
  {
    var n :| Occurs(t, Schema(n));
  }

  lemma PlainStable(reg: Registry, f: Field, obj: Mapping, fuel: nat, v: Value)
    requires BindField(reg, f, obj, fuel) == Ok(v)
    requires !IsSubsettings(RuntimeTag(Candidate(f, obj)), f.typ)
    requires !MissingRequired(f.(default := v), obj)
    ensures BindField(reg, f.(default := v), obj, fuel) == Ok(v)
  {
    assert Candidate(f.(default := v), obj) == Candidate(f, obj);
  }

  lemma {:induction false} NestedStableKeyed(reg: Registry, f: Field, obj: Mapping, fuel: nat, depth: nat, v: Value, n: string, target: Obj, e: Mapping)
    requires f.name in obj && obj[f.name] == TableV(e)
    requires f.typ == Leaf(Schema(n)) && fuel == depth + 1 && v.Instance?
    requires !MissingRequired(f.(default := v), obj)
    requires target == (if IsInstanceOf(reg, f.default, n) then f.default.obj else FreshInstance(n))
    requires ModelValidate(reg, target, e, depth) == Done(v.obj)
    ensures BindField(reg, f.(default := v), obj, fuel) == Ok(v)
    decreases fuel, 0, 1
  {
    if IsInstanceOf(reg, v, n) {
      NestedStableOwn(reg, f.(default := v), obj, fuel, depth, n, target, v.obj, e);
    } else {
      assert v.obj.cls == target.cls;
      NestedBinds(reg, f.(default := v), obj, fuel, depth, n, target, v.obj, e);
    }
  }

  /** A nested field whose default is the instance `o` a validation of its
      table produced binds to `o` again. */
  lemma NestedStableOwn(reg: Registry, g: Field, obj: Mapping, fuel: nat, depth: nat, n: string, target: Obj, o: Obj, e: Mapping)
    requires g.name in obj && obj[g.name] == TableV(e)
    requires g.typ == Leaf(Schema(n)) && fuel == depth + 1 && g.default == Instance(o)
    requires !MissingRequired(g, obj) && IsInstanceOf(reg, g.default, n)
    requires ModelValidate(reg, target, e, depth) == Done(o)
    ensures BindField(reg, g, obj, fuel) == Ok(Instance(o))
    decreases fuel, 0, 0
  {
    ResultIsFixedPoint(reg, target, e, depth, o);
    NestedBinds(reg, g, obj, fuel, depth, n, o, o, e);
  }

  /** The instance a validation produced is a fixed point of validating it
      again with the same mapping. */
  lemma ResultIsFixedPoint(reg: Registry, inst: Obj, obj: Mapping, fuel: nat, o: Obj)
    requires ModelValidate(reg, inst, obj, fuel) == Done(o)
    ensures ModelValidate(reg, o, obj, fuel) == Done(o)
    decreases fuel, 3
  {
    ModelValidateIdempotent(reg, inst, obj, fuel);
  }

  /** A mapping value for a plain nested-schema field binds to the result
      of validating it on the default instance or a fresh one. */
  lemma NestedBinds(reg: Registry, g: Field, obj: Mapping, fuel: nat, depth: nat, n: string, target: Obj, o: Obj, e: Mapping)
    requires g.name in obj && obj[g.name] == TableV(e)
    requires g.typ == Leaf(Schema(n)) && fuel == depth + 1
    requires !MissingRequired(g, obj)
    requires target == (if IsInstanceOf(reg, g.default, n) then g.default.obj else FreshInstance(n))
    requires ModelValidate(reg, target, e, depth) == Done(o)
    ensures BindField(reg, g, obj, fuel) == Ok(Instance(o))
  {
    assert Candidate(g, obj) == obj[g.name];
    assert TypeValidate(Dict, g.typ) == Accepted;
    assert IsSubsettings(Dict, g.typ) by {
      assert Occurs(g.typ, Schema(n));
    }
  }

  lemma NestedStableDefault(reg: Registry, f: Field, obj: Mapping, fuel: nat, v: Value, n: string)
    requires BindField(reg, f, obj, fuel) == Ok(v) && f.name !in obj
    requires f.typ == Leaf(Schema(n)) && f.default.TableV? && v.Instance? && v.obj.cls == n
    requires !MissingRequired(f.(default := v), obj)
    ensures BindField(reg, f.(default := v), obj, fuel) == Ok(v)
  {
    assert Candidate(f.(default := v), obj) == v;
    assert RuntimeTag(v) == f.typ.tag;
  }

  /** Idempotence: validating the result again against the same mapping
      changes nothing. */
  lemma {:induction false} ModelValidateIdempotent(reg: Registry, inst: Obj, obj: Mapping, fuel: nat)
    requires ModelValidate(reg, inst, obj, fuel).Done?
    ensures var s := ModelValidate(reg, inst, obj, fuel).inst;
      ModelValidate(reg, s, obj, fuel) == Done(s)
    decreases fuel, 2
  {
    var s := ModelValidate(reg, inst, obj, fuel).inst;
    var fs := GetFields(reg, OfInstance(inst));
    var gs := GetFields(reg, OfInstance(s));
    ModelValidateSpec(reg, inst, obj, fuel);
    assert |gs| == |fs|;
    forall i | 0 <= i < |gs| && gs[i].name !in ControlFields
      ensures gs[i].name in s.attrs && BindField(reg, gs[i], obj, fuel) == Ok(s.attrs[gs[i].name])
    {
      assert BoundAs(reg, fs, i, obj, fuel, s.attrs);
      assert gs[i] == fs[i].(default := s.attrs[fs[i].name]);
      BindFieldStable(reg, fs[i], obj, fuel, s.attrs[fs[i].name]);
    }
    ValidateFieldsStable(reg, s, obj, gs, fuel);
  }

  /** The validation did not run out of recursion depth. */
  predicate WithinDepth(r: Run)
  {
    r.Failed? ==> r.error != RecursionLimit
  }

  /** Class `c` has (declared or inherited) a field annotated with the
      nested schema `n`. */
  ghost predicate Declares(reg: Registry, c: string, n: string)
  {
    Leaf(Schema(n)) in CollectAnnotations(reg, c).vals.Values
  }

  /** A ranking of the schemas: every class a nested field can be bound to
      (the declared schema or a subclass of it) ranks strictly below the
      class declaring the field. Such a schema tree has no cycle. */
  ghost predicate Ranked(reg: Registry, rank: map<string, nat>)
  {
    && (forall c :: c in reg ==> c in rank)
    && (forall c, n :: c in reg && Declares(reg, c, n) ==> n in reg)
    && (forall c, x :: c in reg && x in reg && NestsInto(reg, c, x) ==> rank[x] < rank[c])
  }

  /** An instance of class `x` can be the value of a nested field of `c`. */
  ghost predicate NestsInto(reg: Registry, c: string, x: string)
  {
    exists n :: Declares(reg, c, n) && n in Mro(reg, x)
  }

  /** A nested field may be bound only to classes ranked below `depth`. */
  ghost predicate FieldWithin(reg: Registry, rank: map<string, nat>, f: Field, depth: nat)
  {
    f.typ.Leaf? && f.typ.tag.Schema? ==>
      && f.typ.tag.name in reg
      && forall x :: x in reg && f.typ.tag.name in Mro(reg, x) ==> x in rank && rank[x] < depth
  }

  /** With a ranked schema tree and at least as much depth as the rank of
      the instance's class, validation never exhausts the recursion depth:
      it is a terminating walk of the tree. */
  lemma {:induction false} RankedWithinDepth(reg: Registry, rank: map<string, nat>, inst: Obj, obj: Mapping, fuel: nat)
    requires Ranked(reg, rank)
    requires inst.cls in reg ==> inst.cls in rank && rank[inst.cls] <= fuel
    ensures WithinDepth(ModelValidate(reg, inst, obj, fuel))
    decreases fuel, 2
  {
    var fs := GetFields(reg, OfInstance(inst));
    var hints := CollectAnnotations(reg, inst.cls);
    if inst.cls in reg {
      forall i | 0 <= i < |fs| ensures FieldWithin(reg, rank, fs[i], fuel) {
        assert fs[i].typ == hints.vals[fs[i].name];
        if fs[i].typ.Leaf? && fs[i].typ.tag.Schema? {
          var n := fs[i].typ.tag.name;
          assert Declares(reg, inst.cls, n);
          forall x | x in reg && n in Mro(reg, x) ensures rank[x] < rank[inst.cls] {
            assert NestsInto(reg, inst.cls, x);
          }
        }
      }
    } else {
      assert Mro(reg, inst.cls) == [];
      assert fs == [];
    }
    FieldsWithinDepth(reg, rank, inst, obj, fs, fuel);
  }

  lemma {:induction false} FieldsWithinDepth(reg: Registry, rank: map<string, nat>, inst: Obj, obj: Mapping, fs: seq<Field>, fuel: nat)
    requires Ranked(reg, rank)
    requires forall i :: 0 <= i < |fs| ==> FieldWithin(reg, rank, fs[i], fuel)
    ensures WithinDepth(ValidateFields(reg, inst, obj, fs, fuel))
    decreases fuel, 1, |fs|
  {
    if fs != [] {
      var f := fs[0];
      assert forall i :: 1 <= i < |fs| ==> fs[1..][i - 1] == fs[i];
      if f.name in ControlFields {
        FieldsWithinDepth(reg, rank, inst, obj, fs[1..], fuel);
      } else {
        BindWithinDepth(reg, rank, f, obj, fuel);
        match BindField(reg, f, obj, fuel)
        case Err(_) =>
        case Ok(v) => FieldsWithinDepth(reg, rank, Obj(inst.cls, inst.attrs[f.name := v]), obj, fs[1..], fuel);
      }
    }
  }

  lemma {:induction false} BindWithinDepth(reg: Registry, rank: map<string, nat>, f: Field, obj: Mapping, fuel: nat)
    requires Ranked(reg, rank) && FieldWithin(reg, rank, f, fuel)
    ensures BindField(reg, f, obj, fuel) != Err(RecursionLimit)
    decreases fuel, 0, 1
  {
    var c := Candidate(f, obj);
    if c.TableV? && f.typ.Leaf? && f.typ.tag.Schema? {
      var n := f.typ.tag.name;
      var target := if IsInstanceOf(reg, f.default, n) then f.default.obj else FreshInstance(n);
      TargetRanked(reg, rank, f, fuel, n, target);
      var m := c.entries;
      assert f.typ == Leaf(Schema(n)) && c == TableV(m);
      var depth: nat := fuel - 1;
      NestedWithinDepth(reg, rank, f, obj, fuel, depth, n, target, m);
    } else {
      NotNestedWithinDepth(reg, f, obj, fuel);
    }
  }

  /** The instance a nested field is validated on belongs to a class ranked
      below the depth left. */
  lemma TargetRanked(reg: Registry, rank: map<string, nat>, f: Field, fuel: nat, n: string, target: Obj)
    requires FieldWithin(reg, rank, f, fuel) && f.typ == Leaf(Schema(n))
    requires target == (if IsInstanceOf(reg, f.default, n) then f.default.obj else FreshInstance(n))
    ensures target.cls in reg && target.cls in rank && rank[target.cls] < fuel
  {
    if !IsInstanceOf(reg, f.default, n) {
      var m := Mro(reg, n);
      assert m[|m| - 1] == n;
    }
  }

  /** The depth bound is hit only by a nested binding with no depth left. */
  lemma NotNestedWithinDepth(reg: Registry, f: Field, obj: Mapping, fuel: nat)
    requires !(Candidate(f, obj).TableV? && f.typ.Leaf? && f.typ.tag.Schema?)
    ensures BindField(reg, f, obj, fuel) != Err(RecursionLimit)
  {
    var vt := RuntimeTag(Candidate(f, obj));
    if !MissingRequired(f, obj) && TypeValidate(vt, f.typ) == Accepted && IsSubsettings(vt, f.typ) && f.typ.Leaf? {
      NestedShape(Candidate(f, obj), f.typ);
      assert false;
    }
  }

  lemma {:induction false} NestedWithinDepth(reg: Registry, rank: map<string, nat>, f: Field, obj: Mapping, fuel: nat, depth: nat, n: string, target: Obj, m: Mapping)
    requires Ranked(reg, rank)
    requires Candidate(f, obj) == TableV(m) && f.typ == Leaf(Schema(n))
    requires target == (if IsInstanceOf(reg, f.default, n) then f.default.obj else FreshInstance(n))
    requires fuel == depth + 1 && target.cls in reg && target.cls in rank && rank[target.cls] <= depth
    ensures BindField(reg, f, obj, fuel) != Err(RecursionLimit)
    decreases fuel, 0, 0
  {
    RankedWithinDepth(reg, rank, target, m, depth);
  }
}

=== FILE: settings_load.dfy ===
/** The file side of setoml/settings.py: the dataclass constructor's
    defaults, `files_existence`, `load` and `__repr__`. The disk is a map from
    existing paths to what the TOML parser makes of them. */
module SettingsLoad {
  import opened Values
  import opened Fields
  import opened OrderedDict
  import opened Introspect
  import opened Merge
  import opened Settings

  /** What the parser returns for an existing file. */
  datatype FileContent = Parsed(doc: Mapping) | Malformed

  /** The files that exist, with their parsed content. */
  type Disk = map<Path, FileContent>

  /** `cls(**kwargs)` without `__post_init__`: the generated `__init__`
      stores every dataclass field in the instance dict, a keyword argument
      replacing its default. An unknown keyword is a TypeError. */
  function Construct(cls: string, kwargs: map<string, Value>): (r: Option<Obj>)
    ensures r.Some? <==> kwargs.Keys <= InitDefaults.Keys
    ensures r.Some? ==> r.value.cls == cls && r.value.attrs.Keys == InitDefaults.Keys
    ensures r.Some? ==> forall k :: k in InitDefaults ==> r.value.attrs[k] == Get(kwargs, k, InitDefaults[k])
  {
    if kwargs.Keys <= InitDefaults.Keys then Some(Obj(cls, InitDefaults + kwargs)) else None
  }

  /** `self.<name>` for a control field. */
  function Attr(reg: Registry, inst: Obj, name: string): Value
  {
    Getattr(reg, OfInstance(inst), name)
  }

  /** `self.file_names = [self.file_names]` when it is a lone string. */
  function WrapLoneName(v: Value): (r: Value)
    ensures v.StrV? ==> r == ArrayV([v])
    ensures !v.StrV? ==> r == v
  {
    if v.StrV? then ArrayV([v]) else v
  }

  /** `for x in v`: a list yields its items and a string yields its
      characters, each a one-character string. Anything else is rejected. */
  function Iterate(v: Value): (r: Result<seq<Value>, Error>)
    ensures v.ArrayV? ==> r == Ok(v.items)
    ensures v.StrV? ==> r.Ok? && |r.value| == |v.s| && forall i :: 0 <= i < |v.s| ==> r.value[i] == StrV([v.s[i]])
    ensures !v.ArrayV? && !v.StrV? ==> r == Err(BadFileNames)
  {
    match v
    case ArrayV(items) => Ok(items)
    case StrV(s) => Ok(seq(|s|, i requires 0 <= i < |s| => StrV([s[i]])))
    case _ => Err(BadFileNames)
  }

  /** `[fname for fname in names if not Path(fname).exists()]`: `Path` of a
      non-string raises. */
  function MissingPaths(names: seq<Value>, disk: Disk): (r: Result<seq<Path>, Error>)
    ensures r.Err? <==> exists i :: 0 <= i < |names| && !names[i].StrV?
    ensures r.Err? ==> r.error == BadFileNames
    ensures r.Ok? ==> forall p :: p in r.value <==> StrV(p) in names && p !in disk
    decreases |names|
  {
    if names == [] then Ok([])
    else if !names[0].StrV? then Err(BadFileNames)
    else
      match MissingPaths(names[1..], disk)
      case Err(e) =>
        var i :| 0 <= i < |names[1..]| && !names[1..][i].StrV?;
        assert !names[i + 1].StrV?;
        Err(e)
      case Ok(rest) =>
        assert forall p :: StrV(p) in names <==> StrV(p) == names[0] || StrV(p) in names[1..] by {
          assert names == [names[0]] + names[1..];
        }
        assert forall i :: 0 <= i < |names[1..]| ==> names[1..][i] == names[i + 1];
        Ok(if names[0].s in disk then rest else [names[0].s] + rest)
  }

  /** `files_existence`: with `skip_missing_files` truthy nothing happens;
      otherwise a lone string `file_names` is replaced by a one-element list
      (kept even if the check then fails), and the check fails listing every
      missing file iff some file is missing. */
  function FilesExistence(reg: Registry, inst: Obj, disk: Disk): (r: Run)
    ensures Truthy(Attr(reg, inst, "skip_missing_files")) ==> r == Done(inst)
    ensures !Truthy(Attr(reg, inst, "skip_missing_files")) ==>
      r.inst == (if Attr(reg, inst, "file_names").StrV?
                 then Obj(inst.cls, inst.attrs["file_names" := ArrayV([Attr(reg, inst, "file_names")])])
                 else inst)
    ensures !Truthy(Attr(reg, inst, "skip_missing_files")) ==>
      match Iterate(WrapLoneName(Attr(reg, inst, "file_names")))
      case Err(e) => r.Failed? && r.error == e
      case Ok(names) =>
        && ((exists i :: 0 <= i < |names| && !names[i].StrV?) ==> r.Failed? && r.error == BadFileNames)
        && ((forall i :: 0 <= i < |names| ==> names[i].StrV?) ==>
              && (r.Done? <==> forall p :: StrV(p) in names ==> p in disk)
              && (r.Failed? ==>
                    r.error.FilesNotFound? && |r.error.paths| > 0 &&
                    forall p :: p in r.error.paths <==> StrV(p) in names && p !in disk))
  {
    if Truthy(Attr(reg, inst, "skip_missing_files")) then Done(inst)
    else
      var names := Attr(reg, inst, "file_names");
      var inst' := if names.StrV? then Obj(inst.cls, inst.attrs["file_names" := ArrayV([names])]) else inst;
      match Iterate(WrapLoneName(names))
      case Err(e) => Failed(inst', e)
      case Ok(items) =>
        match MissingPaths(items, disk)
        case Err(e) => Failed(inst', e)
        case Ok(missing) =>
          if missing == [] then Done(inst')
          else
            assert missing[0] in missing;
            Failed(inst', FilesNotFound(missing))
  }

  /** `toml_load(file)`: a missing file or a malformed document raises. */
  function ReadFile(disk: Disk, p: Path): (r: Result<Mapping, Error>)
    ensures r.Ok? <==> p in disk && disk[p].Parsed?
    ensures r.Ok? ==> r.value == disk[p].doc
    ensures p !in disk ==> r == Err(FileNotFound(p))
  {
    if p !in disk then Err(FileNotFound(p))
    else match disk[p]
      case Parsed(doc) => Ok(doc)
      case Malformed => Err(ParseError(p))
  }

  /** `if self.app_name: toml = toml[self.app_name]`, followed by the
      `settings.update(toml)` that needs a table. */
  function NarrowToApp(toml: Mapping, app: Value): (r: Result<Mapping, Error>)
    ensures !Truthy(app) ==> r == Ok(toml)
    ensures Truthy(app) ==> (r.Ok? <==> app.StrV? && app.s in toml && toml[app.s].TableV?)
    ensures Truthy(app) && r.Ok? ==> r.value == toml[app.s].entries
    ensures Truthy(app) && !(app.StrV? && app.s in toml) ==> r == Err(AppNotFound(app))
  {
    if !Truthy(app) then Ok(toml)
    else if app.StrV? && app.s in toml then
      match toml[app.s]
      case TableV(entries) => Ok(entries)
      case _ => Err(NotATable(app))
    else Err(AppNotFound(app))
  }

  /** One iteration of `load`'s loop: `Path(file)`, parse, narrow. */
  function ReadOne(disk: Disk, name: Value, app: Value): Result<Mapping, Error>
  {
    if !name.StrV? then Err(BadFileNames)
    else match ReadFile(disk, name.s)
      case Err(e) => Err(e)
      case Ok(toml) => NarrowToApp(toml, app)
  }

  /** `load`'s loop up to the merge: each name read and narrowed in turn,
      the first failure ending the loop. */
  function ReadAll(disk: Disk, names: seq<Value>, app: Value): (r: Result<seq<Mapping>, Error>)
    ensures r.Ok? ==> |r.value| == |names| && forall i :: 0 <= i < |names| ==> ReadOne(disk, names[i], app) == Ok(r.value[i])
    ensures r.Err? ==> exists i :: 0 <= i < |names| && ReadOne(disk, names[i], app) == Err(r.error) &&
                         forall j :: 0 <= j < i ==> ReadOne(disk, names[j], app).Ok?
    decreases |names|
  {
    if names == [] then Ok([])
    else
      match ReadOne(disk, names[0], app)
      case Err(e) => Err(e)
      case Ok(m) =>
        match ReadAll(disk, names[1..], app)
        case Err(e) =>
          var i :| 0 <= i < |names[1..]| && ReadOne(disk, names[1..][i], app) == Err(e) &&
                   forall j :: 0 <= j < i ==> ReadOne(disk, names[1..][j], app).Ok?;
          assert names[i + 1] == names[1..][i];
          assert forall j :: 1 <= j < i + 1 ==> names[j] == names[1..][j - 1];
          Err(e)
        case Ok(ms) => Ok([m] + ms)
  }

  /** Everything `load` does after `files_existence`, for a given way of
      iterating `file_names`: if some listed file cannot be read or narrowed,
      the first such file in listed order decides the error and the instance
      is left as it was; otherwise every file is read, and the shallow merge
      of the documents, each key valued by the last file holding it, is
      validated. */
  function LoadWith(reg: Registry, inst: Obj, disk: Disk, fuel: nat, names: Result<seq<Value>, Error>): (r: Run)
    ensures names.Err? ==> r == Failed(inst, names.error)
    ensures names.Ok? && (exists i :: 0 <= i < |names.value| && ReadOne(disk, names.value[i], Attr(reg, inst, "app_name")).Err?) ==>
      && r.Failed? && r.inst == inst
      && exists i :: 0 <= i < |names.value| && ReadOne(disk, names.value[i], Attr(reg, inst, "app_name")) == Err(r.error) &&
           forall j :: 0 <= j < i ==> ReadOne(disk, names.value[j], Attr(reg, inst, "app_name")).Ok?
    ensures names.Ok? && (forall i :: 0 <= i < |names.value| ==> ReadOne(disk, names.value[i], Attr(reg, inst, "app_name")).Ok?) ==>
      var ms := ReadAll(disk, names.value, Attr(reg, inst, "app_name")).value;
      && |ms| == |names.value|
      && (forall i :: 0 <= i < |ms| ==> ReadOne(disk, names.value[i], Attr(reg, inst, "app_name")) == Ok(ms[i]))
      && (forall k :: k in MergeAll(ms) <==> exists i :: 0 <= i < |ms| && k in ms[i])
      && (forall k :: k in MergeAll(ms) ==> LastHolder(ms, k, MergeAll(ms)[k]))
      && r == ModelValidate(reg, inst, MergeAll(ms), fuel)
  {
    match names
    case Err(e) => Failed(inst, e)
    case Ok(ns) =>
      var app := Attr(reg, inst, "app_name");
      match ReadAll(disk, ns, app)
      case Err(e) => Failed(inst, e)
      case Ok(ms) =>
        assert forall i :: 0 <= i < |ns| ==> ReadOne(disk, ns[i], app).Ok?;
        ModelValidate(reg, inst, MergeAll(ms), fuel)
  }

  /** `Settings.load` as written: after `files_existence`, `file_names` is
      iterated as it stands, so a lone string that `files_existence` did not
      wrap is iterated character by character. */
  function LoadAsWritten(reg: Registry, inst: Obj, disk: Disk, fuel: nat): Run
  {
    match FilesExistence(reg, inst, disk)
    case Failed(i, e) => Failed(i, e)
    case Done(i) => LoadWith(reg, i, disk, fuel, Iterate(Attr(reg, i, "file_names")))
  }

  /** `Settings.load` with a lone string `file_names` read as one file name,
      as `files_existence` and the annotation `Iterable[str] | str` intend. */
  function Load(reg: Registry, inst: Obj, disk: Disk, fuel: nat): Run
  {
    match FilesExistence(reg, inst, disk)
    case Failed(i, e) => Failed(i, e)
    case Done(i) => LoadWith(reg, i, disk, fuel, Iterate(WrapLoneName(Attr(reg, i, "file_names"))))
  }

  /** `load` fails with the first file that is missing or malformed, or whose
      app section is absent, in listed order; otherwise it validates the
      shallow merge of the (narrowed) files, a later file's top-level key
      replacing an earlier one's. The files read are the ones checked. */
  lemma LoadSpec(reg: Registry, inst: Obj, disk: Disk, fuel: nat)
    requires FilesExistence(reg, inst, disk).Done?
    ensures var i := FilesExistence(reg, inst, disk).inst;
      var names := Iterate(WrapLoneName(Attr(reg, inst, "file_names")));
      names.Err? ==> Load(reg, inst, disk, fuel) == Failed(i, names.error)
    ensures var i := FilesExistence(reg, inst, disk).inst;
      var names := Iterate(WrapLoneName(Attr(reg, inst, "file_names")));
      var read := if names.Ok? then ReadAll(disk, names.value, Attr(reg, i, "app_name")) else Ok([]);
      names.Ok? && read.Err? ==> Load(reg, inst, disk, fuel) == Failed(i, read.error)
    ensures var i := FilesExistence(reg, inst, disk).inst;
      var names := Iterate(WrapLoneName(Attr(reg, inst, "file_names")));
      var read := if names.Ok? then ReadAll(disk, names.value, Attr(reg, i, "app_name")) else Ok([]);
      names.Ok? && read.Ok? ==>
        && |read.value| == |names.value|
        && Load(reg, inst, disk, fuel) == ModelValidate(reg, i, MergeAll(read.value), fuel)
        && (forall k :: k in MergeAll(read.value) <==> exists j :: 0 <= j < |read.value| && k in read.value[j])
        && (forall k :: k in MergeAll(read.value) ==> LastHolder(read.value, k, MergeAll(read.value)[k]))
  {
    var i := FilesExistence(reg, inst, disk).inst;
    if !Truthy(Attr(reg, inst, "skip_missing_files")) {
      assert Attr(reg, i, "file_names") == WrapLoneName(Attr(reg, inst, "file_names"));
    }
  }

  /** With the existence check active, or with a list of names, the code as
      written and the corrected reading agree. */
  lemma LoadAgreesWhenChecked(reg: Registry, inst: Obj, disk: Disk, fuel: nat)
    requires !Truthy(Attr(reg, inst, "skip_missing_files")) || !Attr(reg, inst, "file_names").StrV?
    ensures LoadAsWritten(reg, inst, disk, fuel) == Load(reg, inst, disk, fuel)
  {
    if !Truthy(Attr(reg, inst, "skip_missing_files")) {
      var i := FilesExistence(reg, inst, disk).inst;
      assert Attr(reg, i, "file_names") == WrapLoneName(Attr(reg, inst, "file_names"));
    }
  }

  /** An application class with no fields of its own. */
  const PlainApp: Registry := map["Settings" := SettingsDecl, "App" := ClassDecl(Some("Settings"), [], map[])]

  /** `App(skip_missing_files=True)`, whose `file_names` is the default
      `"settings.toml"`. */
  const SkippingApp: Obj := Obj("App", InitDefaults["skip_missing_files" := BoolV(true)])

  /** A disk holding exactly `settings.toml`, empty. */
  const OnlySettingsToml: Disk := map["settings.toml" := Parsed(map[])]

  /** With the existence check skipped, the code as written opens `"s"`, the
      first character of the lone file name, and fails although the named
      file exists. */
  lemma LoneNameSplitIntoCharacters()
    ensures LoadAsWritten(PlainApp, SkippingApp, OnlySettingsToml, 1) == Failed(SkippingApp, FileNotFound("s"))
  {
    SkippingAppAttrs();
    FirstCharacterIsRead();
  }

  /** In the same situation the corrected reading loads `settings.toml` and
      validates its (empty) content. */
  lemma LoneNameReadsOneFile()
    ensures Load(PlainApp, SkippingApp, OnlySettingsToml, 1) == ModelValidate(PlainApp, SkippingApp, map[], 1)
  {
    SkippingAppAttrs();
    WholeNameIsRead();
    assert Iterate(WrapLoneName(StrV("settings.toml"))) == Ok([StrV("settings.toml")]);
    assert MergeAll([map[]]) == map[];
  }

  /** The attributes `load` reads from `SkippingApp`; the existence check
      passes without looking at the disk. */
  lemma SkippingAppAttrs()
    ensures Attr(PlainApp, SkippingApp, "skip_missing_files") == BoolV(true)
    ensures Attr(PlainApp, SkippingApp, "file_names") == StrV("settings.toml")
    ensures Attr(PlainApp, SkippingApp, "app_name") == NoneV
    ensures FilesExistence(PlainApp, SkippingApp, OnlySettingsToml) == Done(SkippingApp)
  {
    assert Attr(PlainApp, SkippingApp, "skip_missing_files") == BoolV(true);
  }

  /** Reading the characters of `"settings.toml"` as names fails on `"s"`. */
  lemma FirstCharacterIsRead()
    ensures ReadAll(OnlySettingsToml, Iterate(StrV("settings.toml")).value, NoneV) == Err(FileNotFound("s"))
  {
    var chars := Iterate(StrV("settings.toml")).value;
    assert chars[0] == StrV("s");
    assert ReadOne(OnlySettingsToml, chars[0], NoneV) == Err(FileNotFound("s"));
  }

  /** Reading the one name `"settings.toml"` yields its empty document. */
  lemma WholeNameIsRead()
    ensures ReadAll(OnlySettingsToml, [StrV("settings.toml")], NoneV) == Ok([map[]])
  {
    assert ReadFile(OnlySettingsToml, "settings.toml") == Ok(map[]);
    assert ReadOne(OnlySettingsToml, StrV("settings.toml"), NoneV) == Ok(map[]);
    var one: seq<Value> := [StrV("settings.toml")];
    assert one[0] == StrV("settings.toml") && one[1..] == [];
    var empty: Mapping := map[];
    assert ReadAll(OnlySettingsToml, one, NoneV) == Ok([empty] + []);
    assert [empty] + [] == [empty];
  }

  /** The fields `__repr__` and `model_validate` do not skip, in order. */
  function NonControl(fields: seq<Field>): (r: seq<Field>)
    ensures forall f :: f in r <==> f in fields && f.name !in ControlFields
    ensures |r| <= |fields|
    decreases |fields|
  {
    if fields == [] then []
    else
      var rest := NonControl(fields[1..]);
      assert fields == [fields[0]] + fields[1..];
      if fields[0].name in ControlFields then rest else [fields[0]] + rest
  }

  /** `__repr__`'s entries: `name=default` for exactly the non-control
      fields, in field order, the default being the current attribute. */
  function ReprEntries(reg: Registry, inst: Obj): (r: seq<(string, Value)>)
    ensures var fs := NonControl(GetFields(reg, OfInstance(inst)));
      |r| == |fs| && forall i :: 0 <= i < |r| ==> r[i] == (fs[i].name, Getattr(reg, OfInstance(inst), fs[i].name))
    ensures forall e :: e in r ==> e.0 !in ControlFields && e.1 == Getattr(reg, OfInstance(inst), e.0)
  {
    var fs := GetFields(reg, OfInstance(inst));
    assert forall f :: f in fs ==> f.default == Getattr(reg, OfInstance(inst), f.name);
    ReprOf(fs)
  }

  /** `name=default` for each field the list comprehension keeps, in order. */
  function ReprOf(fields: seq<Field>): (r: seq<(string, Value)>)
    ensures |r| == |NonControl(fields)|
    ensures forall i :: 0 <= i < |r| ==> r[i] == (NonControl(fields)[i].name, NonControl(fields)[i].default)
    ensures forall e :: e in r <==> exists i :: 0 <= i < |fields| && fields[i].name !in ControlFields && e == (fields[i].name, fields[i].default)
    decreases |fields|
  {
    if fields == [] then []
    else
      var rest := ReprOf(fields[1..]);
      assert forall i :: 1 <= i < |fields| ==> fields[i] == fields[1..][i - 1];
      if fields[0].name in ControlFields then rest else [(fields[0].name, fields[0].default)] + rest
  }

  /** After a successful validation `__repr__` shows every non-control field
      with the value it was bound to. */
  lemma ReprShowsBoundValues(reg: Registry, inst: Obj, obj: Mapping, fuel: nat)
    requires ModelValidate(reg, inst, obj, fuel).Done?
    ensures var s := ModelValidate(reg, inst, obj, fuel).inst;
      forall f :: f in GetFields(reg, OfInstance(inst)) && f.name !in ControlFields ==>
        f.name in s.attrs && (f.name, s.attrs[f.name]) in ReprEntries(reg, s) &&
        BindField(reg, f, obj, fuel) == Ok(s.attrs[f.name])
  {
    var s := ModelValidate(reg, inst, obj, fuel).inst;
    var fs := GetFields(reg, OfInstance(inst));
    ModelValidateSpec(reg, inst, obj, fuel);
    forall f | f in fs && f.name !in ControlFields
      ensures f.name in s.attrs && (f.name, s.attrs[f.name]) in ReprEntries(reg, s) && BindField(reg, f, obj, fuel) == Ok(s.attrs[f.name])
    {
      var i :| 0 <= i < |fs| && fs[i] == f;
      assert BoundAs(reg, fs, i, obj, fuel, s.attrs);
      ReprShowsField(reg, inst, s, i);
    }
  }

  /** The `i`-th field of `inst`, when `s` (of the same class) holds a value
      for it, is shown by `s`'s repr with that value. */
  lemma ReprShowsField(reg: Registry, inst: Obj, s: Obj, i: nat)
    requires s.cls == inst.cls
    requires i < |GetFields(reg, OfInstance(inst))|
    requires GetFields(reg, OfInstance(inst))[i].name in s.attrs
    requires GetFields(reg, OfInstance(inst))[i].name !in ControlFields
    ensures var k := GetFields(reg, OfInstance(inst))[i].name;
      (k, s.attrs[k]) in ReprEntries(reg, s)
  {
    var k := GetFields(reg, OfInstance(inst))[i].name;
    var gs := GetFields(reg, OfInstance(s));
    assert gs[i].name == k && gs[i].default == s.attrs[k];
  }

  /** The base class binds nothing: all its fields are control fields, so a
      bare `Settings` instance comes out of validation unchanged, whatever
      the mapping holds. */
  lemma BaseSettingsBindsNothing(reg: Registry, inst: Obj, obj: Mapping, fuel: nat)
    requires "Settings" in reg && reg["Settings"] == SettingsDecl && inst.cls == "Settings"
    ensures ModelValidate(reg, inst, obj, fuel) == Done(inst)
  {
    BaseFieldsAreControl(reg, inst);
    ValidateFieldsStable(reg, inst, obj, GetFields(reg, OfInstance(inst)), fuel);
  }

  /** Every field of a bare `Settings` instance is a control field. */
  lemma BaseFieldsAreControl(reg: Registry, inst: Obj)
    requires "Settings" in reg && reg["Settings"] == SettingsDecl && inst.cls == "Settings"
    ensures forall i :: 0 <= i < |GetFields(reg, OfInstance(inst))| ==> GetFields(reg, OfInstance(inst))[i].name in ControlFields
  {
    BaseChain(reg);
    BaseNamesAreControl();
    GetFieldsSpec(reg, OfInstance(inst));
  }

  lemma BaseChain(reg: Registry)
    requires "Settings" in reg && reg["Settings"] == SettingsDecl
    ensures AllPairs(reg, Mro(reg, "Settings")) == SettingsDecl.annotations
  {
    assert Mro(reg, "Settings") == ["Settings"];
    assert ["Settings"][..0] == [];
  }

  lemma BaseNamesAreControl()
    ensures forall k :: k in Names(SettingsDecl.annotations) ==> k in ControlFields
  {
    var ps := SettingsDecl.annotations;
    forall k | k in Names(ps) ensures k in ControlFields {
      var j :| 0 <= j < |ps| && Names(ps)[j] == k;
      assert ps[j].0 == k;
    }
  }
}

=== FILE: settings_source.dfy ===
/** The cached loader of setoml/settings_source.py. The class-level
    `_cache` dict is an explicit value threaded through `load` and `clear`;
    the abstract `parse_file` and `Path.exists` are parameters, and
    `TOMLSource` instantiates them with the TOML reader. */
module SettingsSource {
  import opened Values
  import opened Merge
  import opened SettingsLoad

  /** `_cache`: merged mappings by their ordered list of source files. The
      code keys it by `str(paths)`, which tells different lists apart. */
  type Cache = map<seq<Path>, Mapping>

  /** What a call of `load` leaves behind and returns (or raises). */
  datatype Loaded = Loaded(cache: Cache, result: Result<Mapping, Error>)

  /** `setting_files or ()` followed by `secret_files or ()`. */
  function Sources(settingFiles: Option<seq<Path>>, secretFiles: Option<seq<Path>>): (r: seq<Path>)
    ensures settingFiles.Some? && secretFiles.Some? ==> r == settingFiles.value + secretFiles.value
    ensures settingFiles.None? ==> r == (if secretFiles.Some? then secretFiles.value else [])
    ensures secretFiles.None? ==> r == (if settingFiles.Some? then settingFiles.value else [])
  {
    (if settingFiles.Some? then settingFiles.value else []) + (if secretFiles.Some? then secretFiles.value else [])
  }

  /** The first path that does not exist, in order. */
  function FirstMissing(paths: seq<Path>, existing: set<Path>): (r: Option<Path>)
    ensures r.None? <==> forall i :: 0 <= i < |paths| ==> paths[i] in existing
    ensures r.Some? ==> exists i :: 0 <= i < |paths| && paths[i] == r.value && r.value !in existing &&
                          forall j :: 0 <= j < i ==> paths[j] in existing
    decreases |paths|
  {
    if paths == [] then None
    else if paths[0] !in existing then Some(paths[0])
    else
      var r := FirstMissing(paths[1..], existing);
      assert forall i :: 1 <= i < |paths| ==> paths[i] == paths[1..][i - 1];
      if r.Some? then
        var i :| 0 <= i < |paths[1..]| && paths[1..][i] == r.value && r.value !in existing &&
                 forall j :: 0 <= j < i ==> paths[1..][j] in existing;
        assert paths[i + 1] == r.value;
        r
      else r
  }

  /** `parse_file` of every path in turn; the first exception propagates. */
  function ParseAll(paths: seq<Path>, parse: Path -> Result<Mapping, Error>): (r: Result<seq<Mapping>, Error>)
    ensures r.Ok? ==> |r.value| == |paths| && forall i :: 0 <= i < |paths| ==> parse(paths[i]) == Ok(r.value[i])
    ensures r.Err? ==> exists i :: 0 <= i < |paths| && parse(paths[i]) == Err(r.error) &&
                         forall j :: 0 <= j < i ==> parse(paths[j]).Ok?
    decreases |paths|
  {
    if paths == [] then Ok([])
    else
      match parse(paths[0])
      case Err(e) => Err(e)
      case Ok(m) =>
        match ParseAll(paths[1..], parse)
        case Err(e) =>
          var i :| 0 <= i < |paths[1..]| && parse(paths[1..][i]) == Err(e) &&
                   forall j :: 0 <= j < i ==> parse(paths[1..][j]).Ok?;
          assert paths[i + 1] == paths[1..][i];
          assert forall j :: 1 <= j < i + 1 ==> paths[j] == paths[1..][j - 1];
          Err(e)
        case Ok(ms) => Ok([m] + ms)
  }

  /** `SettingsSource.load`. On a hit the cached mapping is returned without
      looking at the files. On a miss every file must exist (else the first
      missing one is reported) and parse; only then is the shallow merge, in
      list order, stored and returned. A failure leaves the cache as it was. */
  function SourceLoad(cache: Cache, settingFiles: Option<seq<Path>>, secretFiles: Option<seq<Path>>,
                      existing: set<Path>, parse: Path -> Result<Mapping, Error>): (r: Loaded)
    ensures var key := Sources(settingFiles, secretFiles);
      key in cache ==> r == Loaded(cache, Ok(cache[key]))
    ensures r.result.Err? ==> r.cache == cache
    ensures var key := Sources(settingFiles, secretFiles);
      key !in cache && FirstMissing(key, existing).Some? ==> r.result == Err(FileNotFound(FirstMissing(key, existing).value))
    ensures var key := Sources(settingFiles, secretFiles);
      key !in cache && FirstMissing(key, existing).None? && ParseAll(key, parse).Err? ==>
        r == Loaded(cache, Err(ParseAll(key, parse).error))
    ensures var key := Sources(settingFiles, secretFiles);
      key !in cache && FirstMissing(key, existing).None? && ParseAll(key, parse).Ok? ==>
        && r.result == Ok(MergeAll(ParseAll(key, parse).value))
        && r.cache == cache[key := r.result.value]
    ensures var key := Sources(settingFiles, secretFiles);
      key !in cache && r.result.Ok? ==>
        && (forall i :: 0 <= i < |key| ==> key[i] in existing)
        && ParseAll(key, parse).Ok?
        && r.result.value == MergeAll(ParseAll(key, parse).value)
        && r.cache == cache[key := r.result.value]
  {
    var key := Sources(settingFiles, secretFiles);
    if key in cache then Loaded(cache, Ok(cache[key]))
    else match FirstMissing(key, existing)
      case Some(p) => Loaded(cache, Err(FileNotFound(p)))
      case None =>
        match ParseAll(key, parse)
        case Err(e) => Loaded(cache, Err(e))
        case Ok(ms) =>
          var merged := MergeAll(ms);
          Loaded(cache[key := merged], Ok(merged))
  }

  /** `SettingsSource.clear`: one cache shared by the class and all its
      subclasses, emptied. */
  function Clear(cache: Cache): (r: Cache)
    ensures forall key :: key !in r
  {
    map[]
  }

  /** `TOMLSource.parse_file`: `toml_load`. */
  function TomlParse(disk: Disk): Path -> Result<Mapping, Error>
  {
    p => ReadFile(disk, p)
  }

  /** `TOMLSource.load`: the inherited `load` with the TOML parser. It
      succeeds iff the lists are cached or every listed file exists and is
      well formed; a fresh success stores and returns a mapping whose keys
      are exactly the top-level keys of the listed documents. */
  function TomlLoad(cache: Cache, settingFiles: Option<seq<Path>>, secretFiles: Option<seq<Path>>, disk: Disk): (r: Loaded)
    ensures var key := Sources(settingFiles, secretFiles);
      r.result.Ok? <==> key in cache || forall i :: 0 <= i < |key| ==> key[i] in disk && disk[key[i]].Parsed?
    ensures var key := Sources(settingFiles, secretFiles);
      key !in cache && r.result.Ok? ==>
        && r.cache == cache[key := r.result.value]
        && forall k :: k in r.result.value <==>
             exists i :: 0 <= i < |key| && key[i] in disk && disk[key[i]].Parsed? && k in disk[key[i]].doc
  {
    var key := Sources(settingFiles, secretFiles);
    assert forall i :: 0 <= i < |key| ==> TomlParse(disk)(key[i]) == ReadFile(disk, key[i]);
    assert (forall i :: 0 <= i < |key| ==> key[i] in disk && disk[key[i]].Parsed?) ==>
      FirstMissing(key, disk.Keys).None? && ParseAll(key, TomlParse(disk)).Ok?;
    SourceLoad(cache, settingFiles, secretFiles, disk.Keys, TomlParse(disk))
  }

  /** The cache key is the concatenated list only: settings `xs` with
      secrets `ys` share an entry with settings `xs + ys` and no secrets, and
      two different orders of the same files are different entries. */
  lemma KeyIsConcatenation(xs: seq<Path>, ys: seq<Path>, a: Path, b: Path)
    requires a != b
    ensures Sources(Some(xs), Some(ys)) == Sources(Some(xs + ys), None)
    ensures Sources(Some([a, b]), None) != Sources(Some([b, a]), None)
  {
    assert Sources(Some([a, b]), None)[0] == a;
  }

  /** Cache law: once a load succeeded, loading the same lists again returns
      the same mapping whatever happened to the files since, until the cache
      is cleared. */
  lemma SecondLoadIsCached(cache: Cache, settingFiles: Option<seq<Path>>, secretFiles: Option<seq<Path>>,
                           existing: set<Path>, parse: Path -> Result<Mapping, Error>,
                           existing': set<Path>, parse': Path -> Result<Mapping, Error>)
    requires SourceLoad(cache, settingFiles, secretFiles, existing, parse).result.Ok?
    ensures var first := SourceLoad(cache, settingFiles, secretFiles, existing, parse);
      SourceLoad(first.cache, settingFiles, secretFiles, existing', parse') == first
  {
    var key := Sources(settingFiles, secretFiles);
    var first := SourceLoad(cache, settingFiles, secretFiles, existing, parse);
    assert key in first.cache && first.cache[key] == first.result.value;
  }

  /** After `clear` a load with a missing file fails again, even for lists
      that were loaded before. */
  lemma ClearedLoadChecksFiles(cache: Cache, settingFiles: Option<seq<Path>>, secretFiles: Option<seq<Path>>,
                               existing: set<Path>, parse: Path -> Result<Mapping, Error>, p: Path)
    requires p in Sources(settingFiles, secretFiles) && p !in existing
    ensures SourceLoad(Clear(cache), settingFiles, secretFiles, existing, parse).result.Err?
    ensures SourceLoad(Clear(cache), settingFiles, secretFiles, existing, parse).cache == map[]
  {
    var key := Sources(settingFiles, secretFiles);
    var i :| 0 <= i < |key| && key[i] == p;
    assert FirstMissing(key, existing).Some?;
  }

  /** After `clear`, a load whose files all exist and parse reads them
      again: it stores and returns the mapping that holds exactly the keys of
      the parsed files, each with its value in the last file that has it. */
  lemma ClearedLoadReparses(cache: Cache, settingFiles: Option<seq<Path>>, secretFiles: Option<seq<Path>>,
                            existing: set<Path>, parse: Path -> Result<Mapping, Error>)
    requires forall p :: p in Sources(settingFiles, secretFiles) ==> p in existing && parse(p).Ok?
    ensures var key := Sources(settingFiles, secretFiles);
      var r := SourceLoad(Clear(cache), settingFiles, secretFiles, existing, parse);
      && r.result.Ok? && r.cache == map[key := r.result.value]
      && (forall k :: k in r.result.value <==> exists j :: 0 <= j < |key| && parse(key[j]).Ok? && k in parse(key[j]).value)
      && (forall k :: k in r.result.value ==> LastFileValue(key, parse, k, r.result.value[k]))
  {
    var key := Sources(settingFiles, secretFiles);
    assert FirstMissing(key, existing).None?;
    assert ParseAll(key, parse).Ok?;
    var ms := ParseAll(key, parse).value;
    MergeIsLastFile(key, parse, ms);
  }

  /** Merging the parses of `files` keeps exactly their keys, each with its
      value in the last file that has it. */
  lemma MergeIsLastFile(files: seq<Path>, parse: Path -> Result<Mapping, Error>, ms: seq<Mapping>)
    requires |ms| == |files| && forall i :: 0 <= i < |files| ==> parse(files[i]) == Ok(ms[i])
    ensures forall k :: k in MergeAll(ms) <==> exists j :: 0 <= j < |files| && parse(files[j]).Ok? && k in parse(files[j]).value
    ensures forall k :: k in MergeAll(ms) ==> LastFileValue(files, parse, k, MergeAll(ms)[k])
  {
    var m := MergeAll(ms);
    forall k | k in m ensures LastFileValue(files, parse, k, m[k]) {
      var i :| 0 <= i < |ms| && k in ms[i] && m[k] == ms[i][k] && forall j :: i < j < |ms| ==> k !in ms[j];
      assert parse(files[i]).Ok? && k in parse(files[i]).value && parse(files[i]).value[k] == m[k];
    }
    forall k | exists j :: 0 <= j < |files| && parse(files[j]).Ok? && k in parse(files[j]).value
      ensures k in m
    {
      var j :| 0 <= j < |files| && parse(files[j]).Ok? && k in parse(files[j]).value;
      assert k in ms[j];
    }
  }

  /** `v` is the value of `k` in the last of `files` whose parse has `k`. */
  ghost predicate LastFileValue(files: seq<Path>, parse: Path -> Result<Mapping, Error>, k: string, v: Value)
  {
    exists j :: 0 <= j < |files| && parse(files[j]).Ok? && k in parse(files[j]).value && parse(files[j]).value[k] == v &&
      forall j' :: j < j' < |files| ==> !(parse(files[j']).Ok? && k in parse(files[j']).value)
  }

  /** Secrets override settings wholesale: for a top-level key held by some
      secret file, a fresh load returns the value of the last secret file
      that holds it, whole tables included, whatever the setting files say. */
  lemma SecretKeyWins(cache: Cache, settings: seq<Path>, secrets: seq<Path>,
                      existing: set<Path>, parse: Path -> Result<Mapping, Error>, k: string)
    requires Sources(Some(settings), Some(secrets)) !in cache
    requires SourceLoad(cache, Some(settings), Some(secrets), existing, parse).result.Ok?
    requires exists j :: 0 <= j < |secrets| && parse(secrets[j]).Ok? && k in parse(secrets[j]).value
    ensures var m := SourceLoad(cache, Some(settings), Some(secrets), existing, parse).result.value;
      k in m && LastFileValue(secrets, parse, k, m[k])
  {
    var ms := FreshLoadParses(cache, settings, secrets, existing, parse);
    var j0 :| 0 <= j0 < |secrets| && parse(secrets[j0]).Ok? && k in parse(secrets[j0]).value;
    LastHolderIsSecret(settings, secrets, ms, parse, k, MergeAll(ms), j0);
  }

  /** A fresh successful load merges one parsed mapping per listed file. */
  lemma FreshLoadParses(cache: Cache, settings: seq<Path>, secrets: seq<Path>,
                        existing: set<Path>, parse: Path -> Result<Mapping, Error>) returns (ms: seq<Mapping>)
    requires Sources(Some(settings), Some(secrets)) !in cache
    requires SourceLoad(cache, Some(settings), Some(secrets), existing, parse).result.Ok?
    ensures |ms| == |settings + secrets|
    ensures forall i :: 0 <= i < |ms| ==> parse((settings + secrets)[i]) == Ok(ms[i])
    ensures SourceLoad(cache, Some(settings), Some(secrets), existing, parse).result.value == MergeAll(ms)
  {
    ms := ParseAll(settings + secrets, parse).value;
  }

  lemma LastHolderIsSecret(settings: seq<Path>, secrets: seq<Path>, ms: seq<Mapping>, parse: Path -> Result<Mapping, Error>,
                           k: string, m: Mapping, j0: nat)
    requires j0 < |secrets| && |ms| == |settings + secrets|
    requires forall i :: 0 <= i < |ms| ==> parse((settings + secrets)[i]) == Ok(ms[i])
    requires parse(secrets[j0]).Ok? && k in parse(secrets[j0]).value
    requires forall x :: x in m <==> exists i :: 0 <= i < |ms| && x in ms[i]
    requires forall x :: x in m ==> LastHolder(ms, x, m[x])
    ensures k in m && LastFileValue(secrets, parse, k, m[k])
  {
    var n := |settings|;
    assert (settings + secrets)[n + j0] == secrets[j0];
    assert k in ms[n + j0];
    var i :| 0 <= i < |ms| && k in ms[i] && m[k] == ms[i][k] && forall j :: i < j < |ms| ==> k !in ms[j];
    assert i >= n;
    LastFileFromIndex(settings, secrets, ms, parse, k, m[k], i);
  }

  /** The last mapping holding `k`, when it belongs to a secret file, comes
      from the last secret file holding it. */
  lemma LastFileFromIndex(settings: seq<Path>, secrets: seq<Path>, ms: seq<Mapping>, parse: Path -> Result<Mapping, Error>,
                          k: string, v: Value, i: nat)
    requires |settings| <= i < |ms| == |settings + secrets|
    requires forall i :: 0 <= i < |ms| ==> parse((settings + secrets)[i]) == Ok(ms[i])
    requires k in ms[i] && v == ms[i][k] && forall j :: i < j < |ms| ==> k !in ms[j]
    ensures LastFileValue(secrets, parse, k, v)
  {
    var n := |settings|;
    assert secrets[i - n] == (settings + secrets)[i];
    forall j' | i - n < j' < |secrets| ensures !(parse(secrets[j']).Ok? && k in parse(secrets[j']).value) {
      assert secrets[j'] == (settings + secrets)[n + j'];
    }
  }
}

=== FILE: values.dfy ===
/** Python's runtime object model as far as setoml observes it: closed type
    expressions (what `get_type_hints` returns), the values a TOML parser or a
    class default can produce, schema instances, and the library's errors. */
module Values {

  datatype Option<+T> = None | Some(value: T)

  datatype Result<+T, +E> = Ok(value: T) | Err(error: E)

  type Path = string

  /** The classes a leaf annotation (or `type(value)`) can be. `Schema(n)` is
      the `Settings` subclass named `n` (or `Settings` itself). */
  datatype Tag =
    | Int | Bool | Str | Float | Dict | List | Set
    | DateTime | Date | Time   // datetime.datetime, datetime.date, datetime.time
    | NoneT          // NoneType
    | UndefinedT     // the class of the UndefinedField sentinel
    | Schema(name: string)

  /** What `get_origin` reports for a parameterised annotation. */
  datatype Origin = UnionOf | ListOf | DictOf | SetOf | IterableOf | ClassVarOf

  /** A type expression: a plain class, or a generic / union with arguments. */
  datatype TypeExpr = Leaf(tag: Tag) | Generic(origin: Origin, args: seq<TypeExpr>)

  /** Runtime values. Floats keep only their magnitude as a real (no NaN,
      no rounding); TOML date-times, local dates and local times are three
      classes whose values are opaque text. */
  datatype Value =
    | NoneV
    | Undefined                        // the UndefinedField singleton
    | BoolV(b: bool)
    | IntV(i: int)
    | FloatV(x: real)
    | StrV(s: string)
    | DateTimeV(stamp: string)
    | DateV(stamp: string)
    | TimeV(stamp: string)
    | ArrayV(items: seq<Value>)
    | TableV(entries: map<string, Value>)
    | SetV(members: set<Value>)
    | Instance(obj: Obj)

  /** A schema instance: its class and its instance `__dict__`. */
  datatype Obj = Obj(cls: string, attrs: map<string, Value>)

  /** A parsed TOML document, or the merge of several. */
  type Mapping = map<string, Value>

  /** The errors the core raises, by meaning rather than message text. */
  datatype Error =
    | NotSet(field: string)              // "Not set setting …"
    | TypeMismatch(field: string)        // the explicit TypeError of model_validate
    | NotAClass(field: string)           // TypeError from issubclass/isinstance on a generic
    | RecursionLimit                     // RecursionError on a cyclic nested schema
    | FilesNotFound(paths: seq<Path>)    // files_existence
    | FileNotFound(path: Path)           // reading or checking one missing file
    | ParseError(path: Path)             // malformed TOML
    | AppNotFound(key: Value)            // toml[app_name] raises KeyError
    | NotATable(key: Value)              // the app section cannot update a dict
    | BadFileNames                       // file_names is not a string or a list of strings

  /** Python truthiness (`bool(v)`). The sentinel defines `__bool__` as
      False; schema instances define neither `__bool__` nor `__len__`. */
  predicate Truthy(v: Value)
  {
    match v
    case NoneV => false
    case Undefined => false
    case BoolV(b) => b
    case IntV(i) => i != 0
    case FloatV(x) => x != 0.0
    case StrV(s) => |s| > 0
    case DateTimeV(_) => true
    case DateV(_) => true
    case TimeV(_) => true               // midnight is truthy since Python 3.5
    case ArrayV(items) => |items| > 0
    case TableV(entries) => |entries| > 0
    case SetV(members) => |members| > 0
    case Instance(_) => true
  }

  /** `type(v)`: the exact class of a value. */
  function RuntimeTag(v: Value): Tag
  {
    match v
    case NoneV => NoneT
    case Undefined => UndefinedT
    case BoolV(_) => Bool
    case IntV(_) => Int
    case FloatV(_) => Float
    case StrV(_) => Str
    case DateTimeV(_) => DateTime
    case DateV(_) => Date
    case TimeV(_) => Time
    case ArrayV(_) => List
    case TableV(_) => Dict
    case SetV(_) => Set
    case Instance(o) => Schema(o.cls)
  }

  /** `obj.get(key, fallback)` on a dict. */
  function Get(m: Mapping, key: string, fallback: Value): (r: Value)
    ensures key in m ==> r == m[key]
    ensures key !in m ==> r == fallback
  {
    if key in m then m[key] else fallback
  }
}
